=== FILE: README.md ===
# udever, modelled in Dafny

udever is a small command-line tool that writes udev rules for USB devices. It works in four steps:

- It scans the USB device tree.
- It lets the operator pick a device, or take a `VVVV:PPPP` id from `--id`.
- It builds a one-line rule that grants access and can add a `/dev` symlink. It writes the rule to `/etc/udev/rules.d/99-<name>.rules`.
- It reloads udev and waits for the node to appear.

A second mode lists the existing rule files for editing or deletion. The repository also ships a small Python script, `scripts/check_readme_syntax.py`, that checks a Markdown file for balanced fences and backticks.

This project models the decision logic of both as pure Dafny functions and methods. Every prompt answer, directory listing and subprocess outcome is an input. The project proves what each step computes.

- `wrappers.dfy`: `Option` and `Result`.
- `text.dfy`: the library string operations the tool relies on, with their exact semantics:
  - Rust `trim` over Unicode White_Space;
  - Python `lstrip`/`isspace`, which also treat U+001C..U+001F as space;
  - `split` on one character, `starts_with` and `ends_with`;
  - single-character `count`.
- `lexorder.dfy`, `stablesort.dfy`: Rust's string order and the stable sort `sort`/`sort_by` perform. The sort is characterised independently of the algorithm. Its output is ordered by key and keeps every key's input order, and those two facts determine the output.
- `devices.dfy`: `select_device`. It covers the device catalogue (filter, trimmed ids, display name, `@bus` tag, sort by name) and the menu pick.
- `rulesynth.dfy`:
  - `RuleSynth` covers `--id` parsing, the permission menu, the file name and the rule text.
  - `CreateRule` covers the flow of `create_new_rule` up to the write.
- `rulestore.dfy`: `manage_rules` (listing, menu, edit/delete decision). The rule directory is a map from path to text, with `fs::write` and `fs::remove_file` on it.
- `apply.dfy`: `apply_and_verify` (the 20-check poll), `reload_udev`, `get_editor` and `open_editor`.
- `readmecheck.dfy`: the README syntax script. It covers `splitlines`, both line passes (as loops), the escaped-backtick count and the report/exit decision.

Notes on what the code does, as opposed to what a reader might expect:

- The `--id` argument is only split on `:`. It is accepted iff it has exactly one colon. No check is made that the ids are hexadecimal or non-empty. The model follows the code.
- The group option always writes `GROUP="uucp"`. The `dialout` wording of its menu label on some distributions is text only.
- `apply_and_verify` never looks at the exit status of `udevadm`. Only a failure to start it is an error. A node that never appears yields a warning, not an error.
- `select_device` aborts on one unreadable directory entry. `manage_rules`, by contrast, skips unreadable entries.

## Model

| member | source | states |
|---|---|---|
| Text.Split | src/main.rs:190 | `split(':')` yields one more piece than there are colons. No piece holds a colon, and joining the pieces back with the colon gives the input. |
| RuleSynth.ParseId | src/main.rs:189-194 | An id is accepted iff it holds exactly one colon. The vendor is the text before the colon and the product the text after. Anything else is `InvalidId`. |
| RuleSynth.ParseIdRoundTrip | src/main.rs:189-194 | Any colon-free vendor and product joined by `:` parse back to exactly that pair. |
| CreateRule.HyphenIdRefused | src/main.rs:189-194 | `046d-c52b` is refused with `InvalidId` whatever the other answers are, so nothing is written. |
| RuleSynth.PermissionOf | src/main.rs:243-248 | Menu indices 0..3 select the four permissions in menu order. Every index past the menu falls back to the `uaccess` clause. |
| RuleSynth.PermissionMenuRoundTrip | src/main.rs:229-248 | Each permission's menu position selects that permission again. |
| RuleSynth.Clause | src/main.rs:243-248 | Every permission clause is non-empty and ends with a closing quote. |
| RuleSynth.ClauseOfIndex | src/main.rs:243-248 | Index 1 writes `MODE="0666"`. Index 2 writes `GROUP="uucp", MODE="0660"` whatever the OS label says. Every other index writes `TAG+="uaccess"`. Only index 3 selects the editor. |
| RuleSynth.RuleFilename | src/main.rs:250-256 | The path is `/etc/udev/rules.d/99-`, then the name stem, then `.rules`. The stem can be read back from between the two. |
| RuleSynth.FilenameDeterminesStem | src/main.rs:250-256 | Two rules go to the same file iff their name stems are equal, so a second rule with the same stem replaces the first. |
| CreateRule.FilenameJoiners | src/main.rs:209-256 | Accepting the proposed symlink names the file `<vendor>_<product>`. With no symlink the file is `<vendor>-<product>`. |
| RuleSynth.TrimEditorSeed | src/main.rs:258-277 | Trimming the editor seed removes exactly its final newline. |
| RuleSynth.RenderRule | src/main.rs:258-278 | Every rule text ends with a newline. `RenderRuleLayout` states its full layout. |
| RuleSynth.RenderRuleLayout | src/main.rs:258-278 | Both branches of the rule construction in `create_new_rule` give the same layout. The layout is the match part with vendor and product, then the permission clause, then the symlink clause if there is one, then `\n`. |
| RuleSynth.EditorSeedIsUserAccessRule | src/main.rs:258-278 | The text seeded for the editor is exactly the `uaccess` rule, symlink included. |
| RuleSynth.RuleStartsWithMatch | src/main.rs:258-268 | Every rule starts with the `SUBSYSTEM=="usb", ACTION=="add"` match for its vendor and product. |
| RuleSynth.RuleEndsWithOneNewline | src/main.rs:264-278 | Every rule ends with a closing quote followed by one newline. |
| RuleSynth.RuleEnding | src/main.rs:264-278 | With a symlink the rule ends with `, SYMLINK+="<name>"\n`. Without one it ends with the permission clause and `\n`. |
| RuleSynth.RuleIsOneLine | src/main.rs:258-278 | With newline-free ids and symlink, the rule holds exactly one newline. |
| CreateRule.UaccessExample | src/main.rs:243-274 | `046d:c52b` with no symlink and index 0 writes `99-046d-c52b.rules`, holding the match for the two ids followed by `, TAG+="uaccess"\n`. |
| CreateRule.EveryoneExample | src/main.rs:243-274 | With symlink `mouse` and index 1 the file is `99-mouse.rules`, and the rule is the match for the two ids followed by `MODE="0666"`, `, SYMLINK+="mouse"` and one newline. |
| CreateRule.ResolveTarget | src/main.rs:189-200 | With `--id`, the target is found iff the id has one colon, and it is exactly the parsed vendor and product. Without `--id`, a failed device menu is an error, "Go Back" ends the flow with no target, and a picked device gives its vendor and product. |
| CreateRule.Create | src/main.rs:186-299 | A target error is returned as is, and no target ends quietly. With a target, an OS lookup failure aborts. Otherwise the file is written iff the write is confirmed or the editor is chosen, and the editor is opened iff index 3 was chosen. The plan, or the declined preview, holds the file name and rule text of the resolved ids and the chosen symlink, and the plan waits for that symlink. |
| CreateRule.CreateFromIdDecides | src/main.rs:189-293 | A well-formed id always reaches the write decision, and the file is written iff the operator confirms or chose the editor. |
| CreateRule.CreateFromId | src/main.rs:189-299 | A well-formed id with a confirmed write plans the file name and rule text of the parsed ids, and waits for the chosen symlink. |
| CreateRule.CreateFromDevice | src/main.rs:195-299 | Picking the device at an index of the name-sorted catalogue plans the file name and rule of that device's ids. The file is written iff the operator confirms or chose the editor. |
| Devices.DisplayNameSpec | src/main.rs:464-469 | The name is trimmed manufacturer, one space, and trimmed product. It is just one of them when the other is blank, and empty when both are. It never has edge whitespace. |
| Devices.Collect | src/main.rs:449-480 | Only candidates are kept: no row carries the root-hub vendor `1d6b`, and the ids are stored trimmed. |
| Devices.CollectSource | src/main.rs:456-479 | Every catalogue row is the row of some entry with both ids readable and a non-root-hub vendor. |
| Devices.CollectComplete | src/main.rs:456-479 | Every such entry yields a catalogue row. |
| Devices.CollectOne | src/main.rs:456-479 | One entry yields its own row if it is a candidate and no row otherwise. |
| Devices.CollectConcat | src/main.rs:456-479 | Rows are pushed in directory order: the rows of a listing are those of its first part followed by those of the rest. |
| Devices.NoRootHubListed | src/main.rs:459-461 | No listed device has vendor `1d6b`. |
| Devices.Catalogue | src/main.rs:449-488 | An unreadable entry is an error. No candidates is the "No USB devices found" error. Otherwise the catalogue is a non-empty permutation of the candidates, ordered by name. |
| Devices.CatalogueIsStable | src/main.rs:488 | Devices with the same name keep their order in the collected rows, which `CollectConcat` and `CollectOne` fix as directory order. |
| Devices.Choose | src/main.rs:509-522 | Picking the final "Go Back" entry selects nothing. Any other index selects that device's vendor, product and name. |
| Devices.SelectDevice | src/main.rs:444-523 | It fails iff the catalogue fails, and returns nothing iff "Go Back" was picked. Otherwise it returns the vendor, product and name of the device at the picked index of the name-sorted catalogue, which is a collected device. |
| StableSort.SortBy | src/main.rs:488 | The sort's output is ordered by key and is a permutation of its input. |
| StableSort.SortByStable | src/main.rs:488 | For every key, the elements carrying it keep their input order. |
| StableSort.SortedStableUnique | src/main.rs:488 | Two sequences that are both ordered and list each key's elements in the same order are equal. |
| StableSort.StableSortIsSortBy | src/main.rs:488 | Any ordered rearrangement that keeps each key's order is the sort's output, so `SortBy` is the result of any stable sort. |
| LexOrder.LexLeTotal | src/main.rs:488 | Any two strings are comparable. |
| LexOrder.LexLeAntisym | src/main.rs:488 | Strings that are each at most the other are equal. |
| LexOrder.LexLeTrans | src/main.rs:488 | The string order is transitive. |
| RuleStore.RuleFiles | src/main.rs:310-314 | It lists exactly the readable entries ending in `.rules`. Unreadable entries are skipped. |
| RuleStore.CreatedRuleIsListed | src/main.rs:310-314 | A rule file the create flow wrote, once present in the directory listing, is listed by the manage flow. |
| RuleStore.RuleMenu | src/main.rs:316-317 | The menu is the rule files sorted, followed by one "Go Back". |
| RuleStore.MenuIgnoresDirectoryOrder | src/main.rs:310-317 | Directory listings with the same entries in any order give the same menu. |
| RuleStore.ManageRules | src/main.rs:306-347 | With no rule files nothing happens. "Go Back" does nothing. Otherwise the picked file is edited, or deleted only on confirmation, and it is a listed `.rules` path. |
| RuleStore.WriteFile | src/main.rs:295 | Writing creates or replaces that one file and leaves every other file as it was. |
| RuleStore.WriteTwiceIsWriteOnce | src/main.rs:295 | Writing the same rule twice leaves the directory as one write does. |
| RuleStore.RemoveFile | src/main.rs:343 | Removal fails iff the file is absent. Otherwise exactly that file disappears. |
| RuleStore.RemoveUndoesWrite | src/main.rs:295-343 | Deleting a rule just written leaves the directory without that path and otherwise unchanged. |
| Apply.ApplyAndVerify | src/main.rs:415-441 | It fails iff a `udevadm` run cannot be started, whatever the exit statuses. With no symlink the result is "Applied". Otherwise it reports the node at the first of at most 20 looks that finds it, or a warning after 20 failed looks. The node path is `/dev/<name>`, or the name itself when it is absolute. |
| Apply.ReloadUdev | src/main.rs:149-184 | Nothing runs unless confirmed. Once confirmed, the reload runs first and the trigger follows iff the reload succeeded. It succeeds iff it was declined or both commands succeed. A failure names the command that failed and whether it did not start or exited badly. |
| Apply.FirstAvailable | src/main.rs:370-385 | It returns the first name in the list that is an available command, or none when no name is. |
| Apply.GetEditor | src/main.rs:365-391 | `$VISUAL` wins, then `$EDITOR`. After those it picks the first available of nano, nvim, vim and vi, and fails iff none is, with the no-editor error. |
| Apply.OpenEditor | src/main.rs:393-413 | It succeeds iff an editor is found and starts and exits successfully, and then returns that editor. Otherwise the error says whether no editor was found, the editor did not start, or it exited badly, naming the editor in the last two cases. |
| ReadmeCheck.SplitLines | scripts/check_readme_syntax.py:4 | No line holds a line-break character. |
| ReadmeCheck.SplitLinesRejoin | scripts/check_readme_syntax.py:4 | The lines come in text order: writing each back followed by the break it was cut at (one break character or `\r\n`, and nothing after a last line without a break) gives the text again. |
| ReadmeCheck.SplitJoinLines | scripts/check_readme_syntax.py:4 | Splitting lines that each end in `\n` gives back the lines. |
| ReadmeCheck.SplitLinesKeepsChar | scripts/check_readme_syntax.py:4 | Splitting loses no character other than line breaks, so backtick counts over the lines equal the text's. |
| ReadmeCheck.FenceToken | scripts/check_readme_syntax.py:9-11 | A marker's token is the stripped line up to its first whitespace, or all of it. It starts with three backticks and holds no whitespace. |
| ReadmeCheck.StackOf | scripts/check_readme_syntax.py:8-15 | Every token on the fence stack starts with three backticks. |
| ReadmeCheck.StackParity | scripts/check_readme_syntax.py:8-16 | The stack height and the marker count have the same parity. |
| ReadmeCheck.FencePass | scripts/check_readme_syntax.py:6-16 | The first pass counts exactly the marker lines and builds the push-unless-top-matches stack. |
| ReadmeCheck.InFenceParity | scripts/check_readme_syntax.py:21-32 | Every marker toggles the in-fence flag whatever its token, so the pass ends inside a block iff the marker count is odd. |
| ReadmeCheck.InlinePass | scripts/check_readme_syntax.py:20-34 | The second pass counts backticks only on non-marker lines read outside a block, and ends inside a block iff the markers are odd. |
| ReadmeCheck.OutsideAtMostTotal | scripts/check_readme_syntax.py:33-34 | The outside count is at most the total number of backticks. |
| ReadmeCheck.OutsideWithoutFences | scripts/check_readme_syntax.py:23-34 | With no marker lines, every backtick is counted as outside. |
| ReadmeCheck.FenceLineHasBacktick | scripts/check_readme_syntax.py:9-10 | A marker line holds a backtick. |
| ReadmeCheck.EscapedCount | scripts/check_readme_syntax.py:18 | Each counted escape takes two characters of the text and holds one backtick, so the count is at most half the length and at most the backtick count. |
| ReadmeCheck.EscapedCountIsPairCount | scripts/check_readme_syntax.py:18 | The non-overlapping count equals the number of positions where a backslash is followed by a backtick: a backtick cannot start another pair, so skipping past each pair loses none. |
| ReadmeCheck.EscapedCountPositive | scripts/check_readme_syntax.py:18 | The escaped count is positive iff a backslash is directly followed by a backtick somewhere in the text, inside fences included. |
| ReadmeCheck.Decide | scripts/check_readme_syntax.py:36-49 | Each issue is reported iff its condition holds, with the count it prints. There are at most three issues, in the order fence, escaped, inline. The exit status is 2 iff there is an issue, 0 otherwise. |
| ReadmeCheck.CheckReadme | scripts/check_readme_syntax.py:4-49 | On the whole text, the fence issue appears iff the markers are odd, the escaped issue iff there is a backslash-backtick pair, and the inline issue iff the outside count is odd. Exit 2 iff any issue. Each issue carries the printed count: the marker count, the escaped-pair count and the outside count of the text. |
| ReadmeCheck.NoBackticksIsClean | scripts/check_readme_syntax.py:4-49 | A text with no backtick at all is reported clean. |

## Left out

- RuleSynth.RenderRule: its own contract states only the final newline. Its full text is stated once, by `RenderRuleLayout`. Trimming facts in the function's contract would be unfolded in every proof that mentions a rule.
- RuleSynth.Clause: its own contract states only the closing quote. The clause text for each menu index is stated by `ClauseOfIndex`.
- Terminal I/O is not modelled: printing, colours, the `dialoguer` prompts and menus, `clap` parsing and shell-completion generation. Each prompt's answer is an input.
- The root-privilege check, `udev_healthcheck` and `view_udev_logs` (the `systemctl` and `journalctl` calls) are outside the modelled core.
- The text of `/etc/os-release` only changes a menu label. The model keeps only whether the file could be read, since a failure aborts rule creation.
- Menu label formatting is left out: the padded `select_device` labels and the OS-dependent group label. The menu index is the input.
- Failures of `fs::read_dir` on the directory itself (`/sys/bus/usb/devices`, `/etc/udev/rules.d`) and of `fs::write` are left out as plain I/O errors. Unreadable individual entries are modelled.
- The 100 ms sleeps, the progress dots and the stdout flush in the poll are left out. Those `flush` errors are I/O.
- `has_command` runs `sh -c "command -v …"`. It is a predicate parameter.
- The environment is an input: a variable that is unset or not valid Unicode is `None`.
- The message text and number formatting of the README script are left out. Each issue carries the count its message prints.
- The script's `fence_curr` variable is assigned but never read, so it is left out.
- `to_string_lossy` path conversion is taken as the identity. A listed path is the entry's string.
- Strings are ordered by code point. Rust compares `String`s by their UTF-8 bytes, and the two orders agree.

=== FILE: apply.dfy ===
/** The control flows around the rule file: `apply_and_verify` (reload,
    trigger, then a bounded wait for the `/dev` node), `reload_udev`, and
    the editor lookup of `get_editor` / `open_editor`.  Every subprocess and
    every filesystem probe is an input. */
module Apply {
  import opened Wrappers

  /** How a subprocess ended: it could not be started at all, or it exited
      with a status that was or was not success. */
  datatype Exit = SpawnFailed | Exited(success: bool)

  datatype Command = Reload | Trigger

  datatype ApplyError = CannotRun(cmd: Command)

  /** How many times the node is looked for (100 ms apart). */
  const PollAttempts := 20

  datatype ApplyOutcome =
    | Applied                                  // no symlink to wait for
    | NodeFound(path: string, checks: nat)     // seen at the `checks`-th look
    | NodeMissing(path: string, checks: nat)   // a warning only

  /** `Path::new("/dev").join(name)`: an absolute name replaces `/dev`. */
  function NodePath(name: string): string {
    if |name| > 0 && name[0] == '/' then name else "/dev/" + name
  }

  /** `apply_and_verify`.  `present(i)` is whether the node exists at the
      i-th look.  Only a failure to start udevadm is an error: its exit
      status is never looked at. */
  method ApplyAndVerify(reload: Exit, trigger: Exit, symlink: Option<string>, present: nat -> bool)
    returns (r: Result<ApplyOutcome, ApplyError>)
    ensures reload == SpawnFailed ==> r == Failure(CannotRun(Reload))
    ensures reload != SpawnFailed && trigger == SpawnFailed ==> r == Failure(CannotRun(Trigger))
    ensures r.Success? <==> reload != SpawnFailed && trigger != SpawnFailed
    ensures r.Success? ==> (r.value == Applied <==> symlink.None?)
    ensures r.Success? && r.value.NodeFound? ==>
      && symlink.Some? && r.value.path == NodePath(symlink.value)
      && 1 <= r.value.checks <= PollAttempts
      && present(r.value.checks - 1)
      && forall i :: 0 <= i < r.value.checks - 1 ==> !present(i)
    ensures r.Success? && r.value.NodeMissing? ==>
      && symlink.Some? && r.value.path == NodePath(symlink.value)
      && r.value.checks == PollAttempts
      && forall i :: 0 <= i < PollAttempts ==> !present(i)
  {
    if reload == SpawnFailed {
      return Failure(CannotRun(Reload));
    }
    if trigger == SpawnFailed {
      return Failure(CannotRun(Trigger));
    }
    if symlink.None? {
      return Success(Applied);
    }
    var path := NodePath(symlink.value);
    var i := 0;
    while i < PollAttempts
      invariant 0 <= i <= PollAttempts
      invariant forall j :: 0 <= j < i ==> !present(j)
    {
      if present(i) {
        return Success(NodeFound(path, i + 1));
      }
      i := i + 1;
    }
    return Success(NodeMissing(path, PollAttempts));
  }

  /** The commands `reload_udev` issued and how it ended. */
  datatype ReloadRun = ReloadRun(issued: seq<Command>, result: Result<(), ReloadError>)

  datatype ReloadError = NotStarted(cmd: Command) | Failed(cmd: Command)

  /** `reload_udev`: after confirmation, reload; trigger only if the reload
      succeeded; either failing ends the flow with an error. */
  function ReloadUdev(confirm: bool, reload: Exit, trigger: Exit): (run: ReloadRun)
    ensures run.issued == [] <==> !confirm
    ensures Trigger in run.issued ==> confirm && reload == Exited(true)
    ensures confirm ==> run.issued == if reload == Exited(true) then [Reload, Trigger] else [Reload]
    ensures confirm && reload != Exited(true) ==>
      run.result == Failure(if reload == SpawnFailed then NotStarted(Reload) else Failed(Reload))
    ensures confirm && reload == Exited(true) && trigger != Exited(true) ==>
      run.result == Failure(if trigger == SpawnFailed then NotStarted(Trigger) else Failed(Trigger))
    ensures confirm ==> run.issued[0] == Reload
    ensures run.result.Success? <==> !confirm || (reload == Exited(true) && trigger == Exited(true))
    ensures run.result.Failure? && run.result.error.cmd == Reload ==> reload != Exited(true)
  {
    if !confirm then ReloadRun([], Success(()))
    else match reload
      case SpawnFailed => ReloadRun([Reload], Failure(NotStarted(Reload)))
      case Exited(false) => ReloadRun([Reload], Failure(Failed(Reload)))
      case Exited(true) =>
        match trigger
        case SpawnFailed => ReloadRun([Reload, Trigger], Failure(NotStarted(Trigger)))
        case Exited(false) => ReloadRun([Reload, Trigger], Failure(Failed(Trigger)))
        case Exited(true) => ReloadRun([Reload, Trigger], Success(()))
  }

  /** The editors tried, in order, when neither variable is set. */
  const Fallbacks := ["nano", "nvim", "vim", "vi"]

  datatype EditorError = NoEditor | EditorNotStarted(editor: string) | EditorFailed(editor: string)

  /** The first of `names` that `hasCommand` finds, as an index. */
  function FirstAvailable(names: seq<string>, hasCommand: string -> bool): (r: Option<nat>)
    ensures r.None? <==> forall i :: 0 <= i < |names| ==> !hasCommand(names[i])
    ensures r.Some? ==>
      && r.value < |names| && hasCommand(names[r.value])
      && forall j :: 0 <= j < r.value ==> !hasCommand(names[j])
  {
    if |names| == 0 then None
    else if hasCommand(names[0]) then Some(0)
    else match FirstAvailable(names[1..], hasCommand)
      case None => None
      case Some(i) => Some(i + 1)
  }

  /** `get_editor`: `$VISUAL`, then `$EDITOR` (an empty value counts as set),
      then the first fallback `has_command` finds. */
  function GetEditor(visual: Option<string>, editor: Option<string>, hasCommand: string -> bool)
    : (r: Result<string, EditorError>)
    ensures visual.Some? ==> r == Success(visual.value)
    ensures visual.None? && editor.Some? ==> r == Success(editor.value)
    ensures r.Failure? <==> visual.None? && editor.None? && forall i :: 0 <= i < |Fallbacks| ==> !hasCommand(Fallbacks[i])
    ensures r.Failure? ==> r.error == NoEditor
    ensures visual.None? && editor.None? && r.Success? ==>
      exists i :: 0 <= i < |Fallbacks| && r.value == Fallbacks[i] && hasCommand(Fallbacks[i]) &&
        forall j :: 0 <= j < i ==> !hasCommand(Fallbacks[j])
  {
    if visual.Some? then Success(visual.value)
    else if editor.Some? then Success(editor.value)
    else match FirstAvailable(Fallbacks, hasCommand)
      case None => Failure(NoEditor)
      case Some(i) => Success(Fallbacks[i])
  }

  /** `open_editor`: the editor run on the file must start and exit successfully. */
  function OpenEditor(visual: Option<string>, editor: Option<string>, hasCommand: string -> bool, run: Exit)
    : (r: Result<string, EditorError>)
    ensures r.Success? <==> GetEditor(visual, editor, hasCommand).Success? && run == Exited(true)
    ensures GetEditor(visual, editor, hasCommand).Failure? ==> r == Failure(NoEditor)
    ensures GetEditor(visual, editor, hasCommand).Success? ==>
      var e := GetEditor(visual, editor, hasCommand).value;
      r == if run == SpawnFailed then Failure(EditorNotStarted(e))
           else if run == Exited(false) then Failure(EditorFailed(e))
           else Success(e)
  {
    match GetEditor(visual, editor, hasCommand)
    case Failure(e) => Failure(e)
    case Success(name) =>
      match run
      case SpawnFailed => Failure(EditorNotStarted(name))
      case Exited(false) => Failure(EditorFailed(name))
      case Exited(true) => Success(name)
  }
}

=== FILE: devices.dfy ===
/** The device catalogue of `select_device`: one pass over the entries of the
    USB device tree, keeping real devices, naming them, sorting them by name
    and mapping a menu index back to a device. */
module Devices {
  import opened Wrappers
  import opened Text
  import opened LexOrder
  import opened StableSort

  /** What the tool reads from one device-tree directory: each attribute file
      is `None` when it cannot be read, and `basename` is the entry's name. */
  datatype DirEntry = DirEntry(
    idVendor: Option<string>,
    idProduct: Option<string>,
    manufacturer: Option<string>,
    product: Option<string>,
    basename: string)

  /** A catalogue row: trimmed ids, display name and the `@<basename>` tag. */
  datatype Device = Device(vid: string, pid: string, name: string, bus: string)

  /** What the device menu hands back to rule creation. */
  datatype Choice = Choice(vendor: string, product: string, name: string)

  datatype CatalogueError =
    | UnreadableEntry   // a directory entry could not be read
    | NoDevices         // nothing survived the filter

  /** The vendor id of Linux root hubs, which are never offered. */
  const RootHubVendor := "1d6b"

  /** An entry is a candidate when both ids could be read and it is not a root hub. */
  predicate IsCandidate(e: DirEntry) {
    e.idVendor.Some? && e.idProduct.Some? && RTrim(e.idVendor.value) != RootHubVendor
  }

  /** The display name: trimmed manufacturer and product joined by one space,
      with a missing attribute read as the empty string. */
  function DisplayName(manufacturer: string, product: string): string {
    RTrim(RTrim(manufacturer) + " " + RTrim(product))
  }

  /** What the display name is, case by case: the two trimmed parts joined by
      one space, or just the non-blank one, or empty when both are blank. */
  lemma DisplayNameSpec(manufacturer: string, product: string)
    ensures NoEdgeSpace(DisplayName(manufacturer, product), IsRustSpace)
    ensures RTrim(manufacturer) == "" ==> DisplayName(manufacturer, product) == RTrim(product)
    ensures RTrim(product) == "" ==> DisplayName(manufacturer, product) == RTrim(manufacturer)
    ensures RTrim(manufacturer) != "" && RTrim(product) != ""
        ==> DisplayName(manufacturer, product) == RTrim(manufacturer) + " " + RTrim(product)
  {
    var m := RTrim(manufacturer);
    var p := RTrim(product);
    TrimShape(manufacturer, IsRustSpace);
    TrimShape(product, IsRustSpace);
    TrimShape(m + " " + p, IsRustSpace);
    if m == "" {
      assert m + " " + p == " " + p + "";
      TrimOfPadded(" ", p, "", IsRustSpace);
    } else if p == "" {
      assert m + " " + p == "" + m + " ";
      TrimOfPadded("", m, " ", IsRustSpace);
    } else {
      var t := m + " " + p;
      assert t[0] == m[0] && t[|t| - 1] == p[|p| - 1];
      assert "" + t + "" == t;
      TrimOfPadded("", t, "", IsRustSpace);
    }
  }

  function ToDevice(e: DirEntry): Device
    requires IsCandidate(e)
  {
    Device(
      RTrim(e.idVendor.value),
      RTrim(e.idProduct.value),
      DisplayName(e.manufacturer.GetOr(""), e.product.GetOr("")),
      "@" + e.basename)
  }

  /** Number of candidates among `es`. */
  function CandidateCount(es: seq<DirEntry>): nat {
    if |es| == 0 then 0 else (if IsCandidate(es[0]) then 1 else 0) + CandidateCount(es[1..])
  }

  /** The catalogue rows in directory order, before sorting. */
  function Collect(es: seq<DirEntry>): (ds: seq<Device>)
    ensures |ds| == CandidateCount(es) <= |es|
    ensures forall i :: 0 <= i < |ds| ==> ds[i].vid != RootHubVendor
    ensures forall i :: 0 <= i < |ds| ==> ds[i].vid == RTrim(ds[i].vid) && ds[i].pid == RTrim(ds[i].pid)
  {
    if |es| == 0 then []
    else
      var rest := Collect(es[1..]);
      assert forall i :: 0 <= i < |rest| ==> rest[i].vid != RootHubVendor;
      if IsCandidate(es[0]) then
        var d := ToDevice(es[0]);
        TrimIdempotent(es[0].idVendor.value, IsRustSpace);
        TrimIdempotent(es[0].idProduct.value, IsRustSpace);
        [d] + rest
      else
        rest
  }

  /** Every catalogue row comes from a candidate entry ... */
  lemma {:induction false} CollectSource(es: seq<DirEntry>, i: nat) returns (j: nat)
    requires i < |Collect(es)|
    ensures j < |es| && IsCandidate(es[j]) && Collect(es)[i] == ToDevice(es[j])
    decreases |es|
  {
    if IsCandidate(es[0]) && i == 0 {
      j := 0;
    } else {
      var k := CollectSource(es[1..], if IsCandidate(es[0]) then i - 1 else i);
      j := k + 1;
    }
  }

  /** ... and every candidate entry yields a catalogue row. */
  lemma {:induction false} CollectComplete(es: seq<DirEntry>, j: nat)
    requires j < |es| && IsCandidate(es[j])
    ensures ToDevice(es[j]) in Collect(es)
    decreases |es|
  {
    if j > 0 {
      CollectComplete(es[1..], j - 1);
      assert es[1..][j - 1] == es[j];
    }
  }

  /** One entry contributes its own row, or none. */
  lemma CollectOne(e: DirEntry)
    ensures Collect([e]) == if IsCandidate(e) then [ToDevice(e)] else []
  {
    assert [e][1..] == [];
  }

  /** Rows are collected in directory order: the rows of a listing are the
      rows of its first part followed by the rows of the rest. */
  lemma {:induction false} CollectConcat(a: seq<DirEntry>, b: seq<DirEntry>)
    ensures Collect(a + b) == Collect(a) + Collect(b)
    decreases |a|
  {
    if |a| == 0 {
      assert a + b == b;
    } else {
      assert (a + b)[0] == a[0];
      assert (a + b)[1..] == a[1..] + b;
      CollectConcat(a[1..], b);
    }
  }

  /** A root hub never reaches the catalogue, even when both its ids are readable. */
  lemma NoRootHubListed(es: seq<DirEntry>, d: Device)
    requires d in Collect(es)
    ensures d.vid != RootHubVendor
  {
  }

  function NameOf(d: Device): string {
    d.name
  }

  /** The sorted catalogue, or why there is none.  A `None` entry is a
      directory entry that could not be read, which aborts the scan. */
  function Catalogue(entries: seq<Option<DirEntry>>): (r: Result<seq<Device>, CatalogueError>)
    ensures r == Failure(UnreadableEntry) <==> exists i :: 0 <= i < |entries| && entries[i].None?
    ensures r == Failure(NoDevices)
        <==> (forall i :: 0 <= i < |entries| ==> entries[i].Some?) && CandidateCount(Readable(entries)) == 0
    ensures r.Success? ==>
      && |r.value| > 0
      && SortedBy(r.value, NameOf)
      && multiset(r.value) == multiset(Collect(Readable(entries)))
  {
    if exists i :: 0 <= i < |entries| && entries[i].None? then Failure(UnreadableEntry)
    else
      var items := Collect(Readable(entries));
      if |items| == 0 then Failure(NoDevices) else Success(SortBy(items, NameOf))
  }

  /** The entries that were read, in order. */
  function Readable(entries: seq<Option<DirEntry>>): (es: seq<DirEntry>)
    ensures |es| <= |entries|
  {
    if |entries| == 0 then []
    else (if entries[0].Some? then [entries[0].value] else []) + Readable(entries[1..])
  }

  /** Devices that share a name appear in the catalogue in directory order. */
  lemma CatalogueIsStable(entries: seq<Option<DirEntry>>)
    requires Catalogue(entries).Success?
    ensures SameKeyOrder(Collect(Readable(entries)), Catalogue(entries).value, NameOf)
  {
    SortByStable(Collect(Readable(entries)), NameOf);
  }

  /** The menu lists every device plus a final "Go Back" entry; picking that
      last entry selects nothing. */
  function ChoiceOf(d: Device): Choice {
    Choice(d.vid, d.pid, d.name)
  }

  function Choose(items: seq<Device>, idx: nat): (r: Option<Choice>)
    requires idx < |items| + 1
    ensures r.None? <==> idx == |items|
    ensures r.Some? ==> r.value == ChoiceOf(items[idx])
  {
    if idx == |items| then None else Some(ChoiceOf(items[idx]))
  }

  /** `select_device`: build the catalogue and resolve the operator's pick. */
  function SelectDevice(entries: seq<Option<DirEntry>>, idx: nat): (r: Result<Option<Choice>, CatalogueError>)
    requires Catalogue(entries).Success? ==> idx <= |Catalogue(entries).value|
    ensures r.Failure? <==> Catalogue(entries).Failure?
    ensures r.Success? ==> (r.value.None? <==> idx == |Catalogue(entries).value|)
    ensures r.Success? && r.value.Some? ==>
      && idx < |Catalogue(entries).value|
      && r.value.value == ChoiceOf(Catalogue(entries).value[idx])
    ensures r.Success? && r.value.Some? ==>
      exists d :: d in Collect(Readable(entries)) && ChoiceOf(d) == r.value.value
  {
    match Catalogue(entries)
    case Failure(e) => Failure(e)
    case Success(items) =>
      var c := Choose(items, idx);
      if c.Some? then
        assert items[idx] in multiset(items);
        Success(c)
      else Success(c)
  }
}

=== FILE: lexorder.dfy ===
/** The ordering Rust's `Ord for str` uses: lexicographic by code point (which
    is the same as byte order on the UTF-8 encoding), a proper prefix first. */
module LexOrder {

  predicate LexLe(a: string, b: string)
    decreases |a|
  {
    |a| == 0 || (|b| > 0 && (a[0] < b[0] || (a[0] == b[0] && LexLe(a[1..], b[1..]))))
  }

  lemma {:induction false} LexLeRefl(a: string)
    ensures LexLe(a, a)
    decreases |a|
  {
    if |a| > 0 {
      LexLeRefl(a[1..]);
    }
  }

  lemma {:induction false} LexLeTotal(a: string, b: string)
    ensures LexLe(a, b) || LexLe(b, a)
    decreases |a|
  {
    if |a| > 0 && |b| > 0 && a[0] == b[0] {
      LexLeTotal(a[1..], b[1..]);
    }
  }

  lemma {:induction false} LexLeAntisym(a: string, b: string)
    requires LexLe(a, b) && LexLe(b, a)
    ensures a == b
    decreases |a|
  {
    if |a| > 0 {
      LexLeAntisym(a[1..], b[1..]);
      assert a == [a[0]] + a[1..];
      assert b == [b[0]] + b[1..];
    }
  }

  lemma {:induction false} LexLeTrans(a: string, b: string, c: string)
    requires LexLe(a, b) && LexLe(b, c)
    ensures LexLe(a, c)
    decreases |a|
  {
    if |a| > 0 && a[0] == b[0] && b[0] == c[0] {
      LexLeTrans(a[1..], b[1..], c[1..]);
    }
  }
}

=== FILE: readmecheck.dfy ===
/** The README syntax checker: it splits the text into lines, counts fence
    markers (keeping a stack of fence tokens), counts escaped backticks, counts
    inline backticks outside fenced blocks, and turns the three counts into a
    list of issues and an exit status. */
module ReadmeCheck {
  import opened Text

  /** The characters Python's `str.splitlines` breaks at. */
  predicate IsLineBreak(c: char) {
    || c == '\n' || c == '\r' || c == '\U{B}' || c == '\U{C}'
    || ('\U{1C}' <= c <= '\U{1E}')
    || c == '\U{85}' || c == '\U{2028}' || c == '\U{2029}'
  }

  predicate NoBreak(s: string) {
    forall i :: 0 <= i < |s| ==> !IsLineBreak(s[i])
  }

  /** Index of the first line break in `s`, or `|s|`. */
  function LineEnd(s: string): (n: nat)
    ensures n <= |s| && NoBreak(s[..n])
    ensures n < |s| ==> IsLineBreak(s[n])
  {
    if |s| == 0 || IsLineBreak(s[0]) then 0
    else
      var n := 1 + LineEnd(s[1..]);
      assert s[..n] == [s[0]] + s[1..][..n - 1];
      n
  }

  /** Python's `str.splitlines()`: "\r\n" is one break, the breaks are
      dropped, and a final break does not start an empty last line. */
  function SplitLines(s: string): (lines: seq<string>)
    ensures forall i :: 0 <= i < |lines| ==> NoBreak(lines[i])
    decreases |s|
  {
    if |s| == 0 then []
    else
      var i := LineEnd(s);
      if i == |s| then
        assert s[..i] == s;
        [s]
      else
        var j := if s[i] == '\r' && i + 1 < |s| && s[i + 1] == '\n' then i + 2 else i + 1;
        [s[..i]] + SplitLines(s[j..])
  }

  /** A break as it appears in the text: one break character, or "\r\n". */
  predicate IsBreakText(b: string) {
    (|b| == 1 && IsLineBreak(b[0])) || b == "\r\n"
  }

  /** Lines written out, each followed by its own break. */
  function JoinWith(lines: seq<string>, breaks: seq<string>): string
    requires |breaks| == |lines|
  {
    if |lines| == 0 then "" else lines[0] + breaks[0] + JoinWith(lines[1..], breaks[1..])
  }

  lemma RejoinStep(l: string, t: seq<string>, b: string, r: seq<string>)
    requires |t| == |r|
    ensures JoinWith([l] + t, [b] + r) == l + b + JoinWith(t, r)
  {
    assert ([l] + t)[1..] == t && ([b] + r)[1..] == r;
  }

  lemma SliceJoin(s: string, i: nat, j: nat)
    requires i <= j <= |s|
    ensures s[..i] + s[i..j] + s[j..] == s
  {
  }

  /** The break `SplitLines` cuts the first line at, and where the rest starts. */
  lemma FirstBreak(s: string) returns (j: nat)
    requires LineEnd(s) < |s|
    ensures LineEnd(s) < j <= |s| && IsBreakText(s[LineEnd(s)..j])
    ensures forall k :: LineEnd(s) <= k < j ==> IsLineBreak(s[k])
    ensures j == if s[LineEnd(s)] == '\r' && LineEnd(s) + 1 < |s| && s[LineEnd(s) + 1] == '\n'
      then LineEnd(s) + 2 else LineEnd(s) + 1
    ensures SplitLines(s) == [s[..LineEnd(s)]] + SplitLines(s[j..])
  {
    var i := LineEnd(s);
    j := if s[i] == '\r' && i + 1 < |s| && s[i + 1] == '\n' then i + 2 else i + 1;
    if j == i + 2 {
      assert s[i..j] == "\r\n";
    } else {
      assert s[i..j] == [s[i]];
    }
  }

  /** Splitting keeps the lines in order: writing each line back with the
      break it was cut at (none after the last line if the text has no final
      break) gives the text again. */
  lemma {:induction false} SplitLinesRejoin(s: string) returns (breaks: seq<string>)
    ensures |breaks| == |SplitLines(s)|
    ensures forall i :: 0 <= i < |breaks| ==> IsBreakText(breaks[i]) || (i == |breaks| - 1 && breaks[i] == "")
    ensures JoinWith(SplitLines(s), breaks) == s
    decreases |s|
  {
    if |s| == 0 {
      breaks := [];
    } else if LineEnd(s) == |s| {
      assert s[..|s|] == s;
      assert SplitLines(s) == [s];
      breaks := [""];
      RejoinStep(s, [], "", []);
      assert s + "" + "" == s;
    } else {
      var i := LineEnd(s);
      var j := FirstBreak(s);
      var rest := SplitLinesRejoin(s[j..]);
      var b := s[i..j];
      breaks := [b] + rest;
      assert forall k :: 0 < k < |breaks| ==> breaks[k] == rest[k - 1];
      RejoinStep(s[..i], SplitLines(s[j..]), b, rest);
      SliceJoin(s, i, j);
    }
  }

  /** Lines written out with a "\n" after each one. */
  function JoinLines(lines: seq<string>): string {
    if |lines| == 0 then "" else lines[0] + "\n" + JoinLines(lines[1..])
  }

  lemma {:induction false} LineEndAfter(l: string, rest: string)
    requires NoBreak(l)
    ensures LineEnd(l + "\n" + rest) == |l|
    decreases |l|
  {
    if |l| > 0 {
      assert (l + "\n" + rest)[1..] == l[1..] + "\n" + rest;
      LineEndAfter(l[1..], rest);
    }
  }

  /** Splitting undoes writing the lines out, as long as no line holds a break. */
  lemma {:induction false} SplitJoinLines(lines: seq<string>)
    requires forall i :: 0 <= i < |lines| ==> NoBreak(lines[i])
    ensures SplitLines(JoinLines(lines)) == lines
    decreases |lines|
  {
    if |lines| > 0 {
      var l := lines[0];
      var rest := JoinLines(lines[1..]);
      var s := l + "\n" + rest;
      LineEndAfter(l, rest);
      assert s[|l|] == '\n';
      assert s[..|l|] == l;
      assert s[|l| + 1..] == rest;
      SplitJoinLines(lines[1..]);
    }
  }

  /** Occurrences of `c` over all of `lines`. */
  function TotalChar(c: char, lines: seq<string>): nat {
    if |lines| == 0 then 0 else CountChar(c, lines[0]) + TotalChar(c, lines[1..])
  }

  lemma {:induction false} TotalCharConcat(c: char, a: seq<string>, b: seq<string>)
    ensures TotalChar(c, a + b) == TotalChar(c, a) + TotalChar(c, b)
    decreases |a|
  {
    if |a| == 0 {
      assert a + b == b;
    } else {
      assert (a + b)[1..] == a[1..] + b;
      TotalCharConcat(c, a[1..], b);
    }
  }

  /** The count over all lines is the count over all but the last, plus the last's. */
  lemma TotalCharLast(c: char, lines: seq<string>)
    requires |lines| > 0
    ensures TotalChar(c, lines) == TotalChar(c, lines[..|lines| - 1]) + CountChar(c, lines[|lines| - 1])
  {
    var init, last := lines[..|lines| - 1], lines[|lines| - 1];
    assert lines == init + [last];
    TotalCharConcat(c, init, [last]);
  }

  lemma {:induction false} CountCharOfBreaks(c: char, s: string)
    requires !IsLineBreak(c)
    requires forall i :: 0 <= i < |s| ==> IsLineBreak(s[i])
    ensures CountChar(c, s) == 0
    decreases |s|
  {
    if |s| > 0 {
      CountCharOfBreaks(c, s[1..]);
    }
  }

  /** Splitting into lines loses no character other than the line breaks. */
  lemma {:induction false} SplitLinesKeepsChar(c: char, s: string)
    requires !IsLineBreak(c)
    ensures TotalChar(c, SplitLines(s)) == CountChar(c, s)
    decreases |s|
  {
    if |s| > 0 {
      var i := LineEnd(s);
      if i == |s| {
        assert SplitLines(s) == [s];
        assert [s][1..] == [];
      } else {
        var j := if s[i] == '\r' && i + 1 < |s| && s[i + 1] == '\n' then i + 2 else i + 1;
        SplitLinesKeepsChar(c, s[j..]);
        SplitLinesStep(c, s, i, j);
      }
    }
  }

  /** One line of the split: the count over the lines is the first line's
      count plus the count over the rest. */
  lemma SplitLinesStep(c: char, s: string, i: nat, j: nat)
    requires !IsLineBreak(c)
    requires |s| > 0 && i == LineEnd(s) < |s|
    requires j == if s[i] == '\r' && i + 1 < |s| && s[i + 1] == '\n' then i + 2 else i + 1
    requires TotalChar(c, SplitLines(s[j..])) == CountChar(c, s[j..])
    ensures TotalChar(c, SplitLines(s)) == CountChar(c, s)
  {
    var j' := FirstBreak(s);
    assert j' == j;
    var lines := SplitLines(s);
    assert lines[0] == s[..i] && lines[1..] == SplitLines(s[j..]);
    CountAroundBreaks(c, s, i, j);
  }

  /** Cutting out a run of line breaks does not change the count of `c`. */
  lemma CountAroundBreaks(c: char, s: string, i: nat, j: nat)
    requires !IsLineBreak(c)
    requires i <= j <= |s|
    requires forall k :: i <= k < j ==> IsLineBreak(s[k])
    ensures CountChar(c, s) == CountChar(c, s[..i]) + CountChar(c, s[j..])
  {
    assert s == s[..i] + (s[i..j] + s[j..]);
    CountCharConcat(c, s[..i], s[i..j] + s[j..]);
    CountCharConcat(c, s[i..j], s[j..]);
    CountCharOfBreaks(c, s[i..j]);
  }

  /** The opening or closing marker of a fenced block. */
  const Fence := "```"

  /** A line is a fence marker when, with leading whitespace dropped, it starts with the fence. */
  predicate IsFenceLine(line: string) {
    StartsWith(TrimStart(line, IsPySpace), Fence)
  }

  /** Index of the first whitespace character of `s`, or `|s|`. */
  function SpaceIndex(s: string): (n: nat)
    ensures n <= |s|
    ensures forall i :: 0 <= i < n ==> !IsPySpace(s[i])
    ensures n < |s| ==> IsPySpace(s[n])
  {
    if |s| == 0 || IsPySpace(s[0]) then 0 else 1 + SpaceIndex(s[1..])
  }

  /** `s.lstrip().split()[0]` for a fence line: the marker with its info string,
      up to the first whitespace. */
  function FenceToken(line: string): (tok: string)
    requires IsFenceLine(line)
    ensures StartsWith(tok, Fence)
    ensures forall i :: 0 <= i < |tok| ==> !IsPySpace(tok[i])
    ensures var s := TrimStart(line, IsPySpace);
      |tok| <= |s| && tok == s[..|tok|] && (|tok| == |s| || IsPySpace(s[|tok|]))
  {
    var s := TrimStart(line, IsPySpace);
    var n := SpaceIndex(s);
    assert s[..3] == Fence;
    assert forall i :: 0 <= i < 3 ==> s[i] == '`';
    s[..n]
  }

  /** One step of the fence stack: push a token unless it matches the top, which is popped. */
  function Step(stack: seq<string>, tok: string): (r: seq<string>)
    ensures |r| == |stack| + 1 || |r| == |stack| - 1
  {
    if |stack| == 0 || stack[|stack| - 1] != tok then stack + [tok]
    else stack[..|stack| - 1]
  }

  /** Number of fence lines among `lines`. */
  function FenceCount(lines: seq<string>): nat {
    if |lines| == 0 then 0
    else FenceCount(lines[..|lines| - 1]) + (if IsFenceLine(lines[|lines| - 1]) then 1 else 0)
  }

  /** The fence stack after the first pass over `lines`. */
  function StackOf(lines: seq<string>): (stack: seq<string>)
    ensures forall i :: 0 <= i < |stack| ==> StartsWith(stack[i], Fence)
  {
    if |lines| == 0 then []
    else
      var st := StackOf(lines[..|lines| - 1]);
      var last := lines[|lines| - 1];
      if IsFenceLine(last) then Step(st, FenceToken(last)) else st
  }

  /** Every marker moves the stack by one, so its height has the parity of the marker count. */
  lemma {:induction false} StackParity(lines: seq<string>)
    ensures |StackOf(lines)| % 2 == FenceCount(lines) % 2
    decreases |lines|
  {
    if |lines| > 0 {
      StackParity(lines[..|lines| - 1]);
    }
  }

  /** The first pass of the script, over the lines in order. */
  method FencePass(lines: seq<string>) returns (count: nat, stack: seq<string>)
    ensures count == FenceCount(lines) && stack == StackOf(lines)
    ensures |stack| % 2 == count % 2
    ensures count <= |lines|
  {
    count, stack := 0, [];
    var i := 0;
    while i < |lines|
      invariant 0 <= i <= |lines|
      invariant count == FenceCount(lines[..i]) <= i
      invariant stack == StackOf(lines[..i])
    {
      assert lines[..i + 1][..i] == lines[..i];
      if IsFenceLine(lines[i]) {
        stack := Step(stack, FenceToken(lines[i]));
        count := count + 1;
      }
      i := i + 1;
    }
    assert lines[..i] == lines;
    StackParity(lines);
  }

  /** Whether the second pass is inside a fenced block after `lines`. */
  function InFenceAfter(lines: seq<string>): bool {
    if |lines| == 0 then false
    else
      var before := InFenceAfter(lines[..|lines| - 1]);
      if IsFenceLine(lines[|lines| - 1]) then !before else before
  }

  /** Backticks on the non-fence lines read while not inside a fenced block. */
  function Outside(lines: seq<string>): nat {
    if |lines| == 0 then 0
    else
      var init := lines[..|lines| - 1];
      var last := lines[|lines| - 1];
      Outside(init) + (if !IsFenceLine(last) && !InFenceAfter(init) then CountChar('`', last) else 0)
  }

  /** Every marker toggles the flag, whatever its token: the pass ends inside
      a block exactly when the markers are odd in number. */
  lemma {:induction false} InFenceParity(lines: seq<string>)
    ensures InFenceAfter(lines) <==> FenceCount(lines) % 2 == 1
    decreases |lines|
  {
    if |lines| > 0 {
      InFenceParity(lines[..|lines| - 1]);
    }
  }

  /** Outside backticks never exceed the backticks of all lines. */
  lemma {:induction false} OutsideAtMostTotal(lines: seq<string>)
    ensures Outside(lines) <= TotalChar('`', lines)
    decreases |lines|
  {
    if |lines| > 0 {
      OutsideAtMostTotal(lines[..|lines| - 1]);
      TotalCharLast('`', lines);
    }
  }

  /** Without markers every backtick counts. */
  lemma {:induction false} OutsideWithoutFences(lines: seq<string>)
    requires forall i :: 0 <= i < |lines| ==> !IsFenceLine(lines[i])
    ensures !InFenceAfter(lines)
    ensures Outside(lines) == TotalChar('`', lines)
    decreases |lines|
  {
    if |lines| > 0 {
      OutsideWithoutFences(lines[..|lines| - 1]);
      TotalCharLast('`', lines);
    }
  }

  /** The second pass of the script. */
  method InlinePass(lines: seq<string>) returns (outside: nat, inFence: bool)
    ensures outside == Outside(lines) && inFence == InFenceAfter(lines)
    ensures inFence <==> FenceCount(lines) % 2 == 1
  {
    outside, inFence := 0, false;
    var i := 0;
    while i < |lines|
      invariant 0 <= i <= |lines|
      invariant outside == Outside(lines[..i])
      invariant inFence == InFenceAfter(lines[..i])
    {
      assert lines[..i + 1][..i] == lines[..i];
      if IsFenceLine(lines[i]) {
        inFence := !inFence;
      } else if !inFence {
        outside := outside + CountChar('`', lines[i]);
      }
      i := i + 1;
    }
    assert lines[..i] == lines;
    InFenceParity(lines);
  }

  /** Left-to-right, non-overlapping count of backslash-backtick (`str.count`). */
  function EscapedCount(s: string): (n: nat)
    ensures 2 * n <= |s|
    ensures n <= CountChar('`', s)
  {
    if |s| < 2 then 0
    else if s[0] == '\\' && s[1] == '`' then
      assert CountChar('`', s) == CountChar('`', s[1..]);
      assert CountChar('`', s[1..]) == 1 + CountChar('`', s[2..]) by {
        assert s[1..][1..] == s[2..];
      }
      1 + EscapedCount(s[2..])
    else
      assert CountChar('`', s) >= CountChar('`', s[1..]);
      EscapedCount(s[1..])
  }

  predicate EscapedAt(s: string, i: int) {
    0 <= i < |s| - 1 && s[i] == '\\' && s[i + 1] == '`'
  }

  /** The number of positions where a backslash-backtick pair starts. */
  function PairCount(s: string): nat
    decreases |s|
  {
    if |s| < 2 then 0 else (if EscapedAt(s, 0) then 1 else 0) + PairCount(s[1..])
  }

  /** Skipping past each pair loses nothing: a backtick cannot start another
      pair, so the non-overlapping count is the count of all pair positions. */
  lemma {:induction false} EscapedCountIsPairCount(s: string)
    ensures EscapedCount(s) == PairCount(s)
    decreases |s|
  {
    if |s| >= 2 {
      if EscapedAt(s, 0) {
        assert !EscapedAt(s[1..], 0);
        EscapedCountIsPairCount(s[2..]);
        assert s[1..][1..] == s[2..];
      } else {
        EscapedCountIsPairCount(s[1..]);
      }
    }
  }

  /** There is an escaped backtick exactly when the count is positive. */
  lemma {:induction false} EscapedCountPositive(s: string)
    ensures EscapedCount(s) > 0 <==> exists i :: EscapedAt(s, i)
    decreases |s|
  {
    if |s| >= 2 {
      if s[0] == '\\' && s[1] == '`' {
        assert EscapedAt(s, 0);
      } else {
        var t := s[1..];
        EscapedCountPositive(t);
        if exists i :: EscapedAt(t, i) {
          var i :| EscapedAt(t, i);
          assert EscapedAt(s, i + 1);
        }
        if exists i :: EscapedAt(s, i) {
          var i :| EscapedAt(s, i);
          assert i != 0;
          assert EscapedAt(t, i - 1);
        }
      }
    }
  }

  /** The three issues, each carrying the count the message prints. */
  datatype Issue =
    | UnbalancedFences(fences: nat)
    | EscapedBackticks(escaped: nat)
    | UnbalancedInline(backticks: nat)

  /** The place of an issue in the report. */
  function Rank(e: Issue): nat {
    match e
    case UnbalancedFences(_) => 0
    case EscapedBackticks(_) => 1
    case UnbalancedInline(_) => 2
  }

  datatype Verdict = Verdict(issues: seq<Issue>, exitCode: int)

  /** The report: an odd marker count, any escaped backtick and an odd inline
      count are each an issue, in that order; any issue means exit status 2. */
  function Decide(fences: nat, escaped: nat, outside: nat): (v: Verdict)
    ensures v.exitCode == 2 <==> |v.issues| > 0
    ensures v.exitCode == 0 <==> |v.issues| == 0
    ensures |v.issues| <= 3
    ensures forall i, j :: 0 <= i < j < |v.issues| ==> Rank(v.issues[i]) < Rank(v.issues[j])
    ensures UnbalancedFences(fences) in v.issues <==> fences % 2 != 0
    ensures EscapedBackticks(escaped) in v.issues <==> escaped > 0
    ensures UnbalancedInline(outside) in v.issues <==> outside % 2 != 0
    ensures forall e :: e in v.issues ==>
      e == UnbalancedFences(fences) || e == EscapedBackticks(escaped) || e == UnbalancedInline(outside)
  {
    var issues :=
      (if fences % 2 != 0 then [UnbalancedFences(fences)] else [])
      + (if escaped > 0 then [EscapedBackticks(escaped)] else [])
      + (if outside % 2 != 0 then [UnbalancedInline(outside)] else []);
    Verdict(issues, if |issues| > 0 then 2 else 0)
  }

  /** The whole script on the README text. */
  method CheckReadme(text: string) returns (v: Verdict)
    ensures v.exitCode == 2 <==> |v.issues| > 0
    ensures v.exitCode == 0 <==> |v.issues| == 0
    ensures (exists e :: e in v.issues && e.UnbalancedFences?)
        <==> InFenceAfter(SplitLines(text))
    ensures (exists e :: e in v.issues && e.EscapedBackticks?)
        <==> exists i :: EscapedAt(text, i)
    ensures (exists e :: e in v.issues && e.UnbalancedInline?)
        <==> Outside(SplitLines(text)) % 2 != 0
    ensures forall i, j :: 0 <= i < j < |v.issues| ==> Rank(v.issues[i]) < Rank(v.issues[j])
    ensures v == Decide(FenceCount(SplitLines(text)), EscapedCount(text), Outside(SplitLines(text)))
  {
    var lines := SplitLines(text);
    var fences, stack := FencePass(lines);
    var escaped := EscapedCount(text);
    var outside, inFence := InlinePass(lines);
    v := Decide(fences, escaped, outside);
    EscapedCountPositive(text);
  }

  /** A fence line holds a backtick. */
  lemma FenceLineHasBacktick(line: string)
    requires IsFenceLine(line)
    ensures CountChar('`', line) > 0
  {
    TrimStartShape(line, IsPySpace);
    var s := TrimStart(line, IsPySpace);
    assert s[0] == '`';
    assert line[|line| - |s|] == '`';
    CountCharAbsent('`', line);
  }

  lemma {:induction false} NoBacktickLines(lines: seq<string>, k: nat)
    requires TotalChar('`', lines) == 0 && k < |lines|
    ensures CountChar('`', lines[k]) == 0
    decreases |lines|
  {
    if k > 0 {
      NoBacktickLines(lines[1..], k - 1);
    }
  }

  /** A text with no backtick at all is reported clean. */
  lemma NoBackticksIsClean(text: string)
    requires '`' !in text
    ensures |Decide(FenceCount(SplitLines(text)), EscapedCount(text), Outside(SplitLines(text))).issues| == 0
  {
    var lines := SplitLines(text);
    CountCharAbsent('`', text);
    SplitLinesKeepsChar('`', text);
    forall i | 0 <= i < |lines|
      ensures !IsFenceLine(lines[i])
    {
      NoBacktickLines(lines, i);
      if IsFenceLine(lines[i]) {
        FenceLineHasBacktick(lines[i]);
      }
    }
    OutsideWithoutFences(lines);
    InFenceParity(lines);
    EscapedCountPositive(text);
    assert forall i :: !EscapedAt(text, i);
  }
}

=== FILE: rulestore.dfy ===
/** The rule directory and `manage_rules`: listing the rule files, the
    edit/delete menu, and the directory itself as a map from path to text. */
module RuleStore {
  import opened Wrappers
  import opened Text
  import opened LexOrder
  import opened StableSort
  import RuleSynth

  /** The entry the rule menu appends after the files. */
  const GoBack := "Go Back"

  /** A listed entry is a rule file iff it ends in the suffix rule files are written with. */
  predicate IsRulesPath(p: string) {
    EndsWith(p, RuleSynth.RuleSuffix)
  }

  /** Every file the create flow writes is one the manage flow lists. */
  lemma CreatedRuleIsListed(entries: seq<Option<string>>, vendor: string, product: string, symlink: Option<string>)
    requires Some(RuleSynth.RuleFilename(vendor, product, symlink)) in entries
    ensures RuleSynth.RuleFilename(vendor, product, symlink) in RuleFiles(entries)
  {
  }

  /** The paths `read_dir` yielded that end in `.rules`, in directory order;
      a `None` entry is one `read_dir` could not read, which is skipped. */
  function RuleFiles(entries: seq<Option<string>>): (files: seq<string>)
    ensures forall i :: 0 <= i < |files| ==> IsRulesPath(files[i])
    ensures forall p :: Some(p) in entries && IsRulesPath(p) ==> p in files
    ensures forall p :: p in files ==> Some(p) in entries
  {
    if |entries| == 0 then []
    else
      var rest := RuleFiles(entries[1..]);
      assert forall x :: x in entries[1..] ==> x in entries;
      assert forall x :: x in entries && x != entries[0] ==> x in entries[1..];
      if entries[0].Some? && IsRulesPath(entries[0].value) then [entries[0].value] + rest else rest
  }

  function Identity(s: string): string {
    s
  }

  /** The menu of the manage flow: the rule files in byte order, then "Go Back". */
  function RuleMenu(entries: seq<Option<string>>): (menu: seq<string>)
    ensures |menu| == |RuleFiles(entries)| + 1 && menu[|menu| - 1] == GoBack
    ensures SortedBy(menu[..|menu| - 1], Identity)
    ensures multiset(menu[..|menu| - 1]) == multiset(RuleFiles(entries))
  {
    var menu := SortBy(RuleFiles(entries), Identity) + [GoBack];
    assert menu[..|menu| - 1] == SortBy(RuleFiles(entries), Identity);
    menu
  }

  /** For the identity key, `WithKey` is the key repeated as often as it occurs. */
  lemma {:induction false} WithIdentityKey(s: seq<string>, k: string)
    ensures WithKey(s, Identity, k) == seq(multiset(s)[k], _ => k)
    decreases |s|
  {
    if |s| > 0 {
      WithIdentityKey(s[1..], k);
      CountCons(s, k);
      var n := multiset(s[1..])[k];
      if s[0] == k {
        assert WithKey(s, Identity, k) == [k] + WithKey(s[1..], Identity, k);
        assert multiset(s)[k] == n + 1;
        assert seq(n + 1, _ => k) == [k] + seq(n, _ => k);
      } else {
        assert WithKey(s, Identity, k) == WithKey(s[1..], Identity, k);
        assert multiset(s)[k] == n;
      }
    }
  }

  /** The occurrences of `k` in `s` are those in its first element and in the rest. */
  lemma CountCons(s: seq<string>, k: string)
    requires |s| > 0
    ensures multiset(s)[k] == (if s[0] == k then 1 else 0) + multiset(s[1..])[k]
  {
    assert s == [s[0]] + s[1..];
    assert multiset(s) == multiset{s[0]} + multiset(s[1..]);
  }

  /** How many times each path occurs among the listed rule files. */
  lemma {:induction false} RuleFilesCount(entries: seq<Option<string>>, p: string)
    ensures multiset(RuleFiles(entries))[p] == if IsRulesPath(p) then multiset(entries)[Some(p)] else 0
    decreases |entries|
  {
    if |entries| > 0 {
      RuleFilesCount(entries[1..], p);
      assert entries == [entries[0]] + entries[1..];
      assert multiset(entries) == multiset{entries[0]} + multiset(entries[1..]);
    }
  }

  /** The menu does not depend on the order `read_dir` produced the entries in. */
  lemma MenuIgnoresDirectoryOrder(e1: seq<Option<string>>, e2: seq<Option<string>>)
    requires multiset(e1) == multiset(e2)
    ensures RuleMenu(e1) == RuleMenu(e2)
  {
    var f1 := RuleFiles(e1);
    var f2 := RuleFiles(e2);
    forall p
      ensures multiset(f1)[p] == multiset(f2)[p]
    {
      RuleFilesCount(e1, p);
      RuleFilesCount(e2, p);
    }
    assert multiset(f1) == multiset(f2);
    var s1 := SortBy(f1, Identity);
    forall k
      ensures WithKey(s1, Identity, k) == WithKey(f2, Identity, k)
    {
      WithIdentityKey(s1, k);
      WithIdentityKey(f2, k);
    }
    StableSortIsSortBy(f2, s1, Identity);
  }

  datatype Action = Edit | Delete

  /** What `manage_rules` ends up doing. */
  datatype Manage =
    | NoRules                 // nothing to list: "No rules found."
    | Back                    // "Go Back" was picked
    | EditRule(path: string)  // open the editor on it, then reload
    | DeleteRule(path: string)// remove it, then reload
    | KeepRule(path: string)  // deletion declined

  /** `selection` is the fuzzy menu's index into `RuleMenu(entries)`;
      `confirm` answers "Delete ...?". */
  function ManageRules(entries: seq<Option<string>>, action: Action, selection: nat, confirm: bool): (r: Manage)
    requires |RuleFiles(entries)| > 0 ==> selection <= |RuleFiles(entries)|
    ensures r == NoRules <==> |RuleFiles(entries)| == 0
    ensures |RuleFiles(entries)| > 0 ==> (r == Back <==> selection == |RuleFiles(entries)|)
    ensures r.EditRule? || r.DeleteRule? || r.KeepRule? ==>
      && IsRulesPath(r.path) && Some(r.path) in entries
      && r.path == RuleMenu(entries)[selection]
    ensures r.EditRule? ==> action == Edit
    ensures r.DeleteRule? ==> action == Delete && confirm
    ensures r.KeepRule? ==> action == Delete && !confirm
  {
    var menu := RuleMenu(entries);
    if |menu| == 1 then NoRules
    else if selection == |menu| - 1 then Back
    else
      var target := menu[selection];
      assert target in multiset(RuleFiles(entries));
      match action
      case Edit => EditRule(target)
      case Delete => if confirm then DeleteRule(target) else KeepRule(target)
  }

  datatype StoreError = NotFound(path: string)

  /** The rule directory: path to file text. */
  type Directory = map<string, string>

  /** `fs::write`: creates or silently replaces the file. */
  function WriteFile(dir: Directory, path: string, text: string): (d: Directory)
    ensures path in d && d[path] == text
    ensures d.Keys == dir.Keys + {path}
    ensures forall q :: q in dir && q != path ==> q in d && d[q] == dir[q]
  {
    dir[path := text]
  }

  /** `fs::remove_file`: fails when the file is not there. */
  function RemoveFile(dir: Directory, path: string): (r: Result<Directory, StoreError>)
    ensures r.Failure? <==> path !in dir
    ensures r.Success? ==> r.value.Keys == dir.Keys - {path}
    ensures r.Success? ==> forall q :: q in r.value ==> r.value[q] == dir[q]
  {
    if path !in dir then Failure(NotFound(path)) else Success(dir - {path})
  }

  /** Writing the same rule twice leaves the directory as one write does. */
  lemma WriteTwiceIsWriteOnce(dir: Directory, path: string, text: string)
    ensures WriteFile(WriteFile(dir, path, text), path, text) == WriteFile(dir, path, text)
  {
  }

  /** Deleting a rule that was just written restores the directory to what it
      was without that path. */
  lemma RemoveUndoesWrite(dir: Directory, path: string, text: string)
    ensures RemoveFile(WriteFile(dir, path, text), path) == Success(dir - {path})
  {
    var after := RemoveFile(WriteFile(dir, path, text), path).value;
    assert after.Keys == (dir - {path}).Keys;
    assert forall q :: q in after ==> after[q] == (dir - {path})[q];
    assert after == dir - {path};
  }
}

=== FILE: rulesynth.dfy ===
/** Rule synthesis in `create_new_rule`: parsing a `VVVV:PPPP` argument,
    mapping the permission menu to a clause, deriving the rule file name and
    rendering the one-line udev rule, then deciding whether it is written. */
module RuleSynth {
  import opened Wrappers
  import opened Text
  import Devices

  /** The directory the rule files live in. */
  const RulesDir := "/etc/udev/rules.d"

  datatype IdPair = IdPair(vendor: string, product: string)

  datatype CreateError =
    | InvalidId                                   // `--id` is not `VVVV:PPPP`
    | DeviceMenu(cause: Devices.CatalogueError)   // the device catalogue failed
    | OsReleaseUnreadable                         // the OS lookup before the menu failed

  /** Splits `id` on every `:` and accepts exactly two pieces.  No check is
      made that the pieces are hexadecimal, or even non-empty. */
  function ParseId(id: string): (r: Result<IdPair, CreateError>)
    ensures r.Success? <==> CountChar(':', id) == 1
    ensures r.Failure? ==> r.error == InvalidId
    ensures r.Success? ==> r.value.vendor + ":" + r.value.product == id
    ensures r.Success? ==> ':' !in r.value.vendor && ':' !in r.value.product
  {
    var parts := Split(id, ':');
    if |parts| != 2 then Failure(InvalidId)
    else
      assert Join(parts, ':') == parts[0] + [':'] + parts[1];
      Success(IdPair(parts[0], parts[1]))
  }

  /** Any colon-free vendor and product, joined by one colon, parse back. */
  lemma ParseIdRoundTrip(vendor: string, product: string)
    requires ':' !in vendor && ':' !in product
    ensures ParseId(vendor + ":" + product) == Success(IdPair(vendor, product))
  {
    var id := vendor + ":" + product;
    CountCharConcat(':', vendor + ":", product);
    CountCharConcat(':', vendor, ":");
    CountCharAbsent(':', vendor);
    CountCharAbsent(':', product);
    var r := ParseId(id);
    CutAtSeparator(r.value.vendor, r.value.product, vendor, product, ':');
  }

  /** The four entries of the permission menu. */
  datatype Permission = UserAccess | Everyone | GroupUucp | Editor

  /** The menu position of each permission. */
  function MenuIndex(p: Permission): nat {
    match p
    case UserAccess => 0
    case Everyone => 1
    case GroupUucp => 2
    case Editor => 3
  }

  /** The permission a menu index selects; any index past the menu falls
      back to the `uaccess` clause, as the `_` arm of the match in
      `create_new_rule` does. */
  function PermissionOf(idx: nat): (p: Permission)
    ensures idx < 4 ==> MenuIndex(p) == idx
    ensures idx >= 4 ==> p == UserAccess
  {
    match idx
    case 1 => Everyone
    case 2 => GroupUucp
    case 3 => Editor
    case _ => UserAccess
  }

  lemma PermissionMenuRoundTrip(p: Permission)
    ensures PermissionOf(MenuIndex(p)) == p
  {
  }

  const UaccessClause := "TAG+=\"uaccess\""

  /** The permission clause written into the rule.  The group is `uucp`
      whatever group the menu label names, and the editor choice starts
      from the `uaccess` clause. */
  function Clause(p: Permission): (c: string)
    ensures |c| > 0 && c[|c| - 1] == '"'
  {
    match p
    case UserAccess => UaccessClause
    case Everyone => "MODE=\"0666\""
    case GroupUucp => "GROUP=\"uucp\", MODE=\"0660\""
    case Editor => UaccessClause
  }

  /** The clause each menu index writes: mode 0666 for 1, the `uucp` group
      with mode 0660 for 2, and the `uaccess` tag for every other index (3,
      the editor, starts from it too). */
  lemma ClauseOfIndex(idx: nat)
    ensures idx == 1 ==> Clause(PermissionOf(idx)) == "MODE=\"0666\""
    ensures idx == 2 ==> Clause(PermissionOf(idx)) == "GROUP=\"uucp\", MODE=\"0660\""
    ensures idx != 1 && idx != 2 ==> Clause(PermissionOf(idx)) == "TAG+=\"uaccess\""
    ensures PermissionOf(idx) == Editor <==> idx == 3
  {
    if idx >= 4 {
      assert PermissionOf(idx) == UserAccess;
    }
  }

  const VendorMatch := "SUBSYSTEM==\"usb\", " + "ACTION==\"add\", " + "ATTRS{idVendor}==\""
  const ProductMatch := "\", ATTRS{idProduct}==\""
  const ClauseSep := "\", "

  /** The match part every rule starts with. */
  function MatchPrefix(vendor: string, product: string): string {
    VendorMatch + vendor + ProductMatch + product + ClauseSep
  }

  function SymlinkClause(name: string): string {
    ", SYMLINK+=\"" + name + "\""
  }

  /** What follows the permission clause: the symlink clause, if any. */
  function SymlinkTail(symlink: Option<string>): string {
    if symlink.Some? then SymlinkClause(symlink.value) else ""
  }

  /** The symlink name the prompt proposes: ids joined by an underscore. */
  function DefaultSymlink(vendor: string, product: string): string {
    vendor + "_" + product
  }

  /** The file name stem: the symlink, or the ids joined by a hyphen. */
  function NameBase(vendor: string, product: string, symlink: Option<string>): string {
    symlink.GetOr(vendor + "-" + product)
  }

  const RulePrefix := RulesDir + "/99-"
  const RuleSuffix := ".rules"

  function RuleFilename(vendor: string, product: string, symlink: Option<string>): (path: string)
    ensures |path| == |RulePrefix| + |NameBase(vendor, product, symlink)| + |RuleSuffix|
    ensures StartsWith(path, RulePrefix) && EndsWith(path, RuleSuffix)
    ensures path[|RulePrefix|..|path| - |RuleSuffix|] == NameBase(vendor, product, symlink)
  {
    var path := RulePrefix + NameBase(vendor, product, symlink) + RuleSuffix;
    assert path[|RulePrefix|..|path| - |RuleSuffix|] == NameBase(vendor, product, symlink);
    path
  }

  /** Two rules land in the same file exactly when their name stems agree
      (so a second rule for the same stem silently replaces the first). */
  lemma FilenameDeterminesStem(v1: string, p1: string, s1: Option<string>, v2: string, p2: string, s2: Option<string>)
    ensures RuleFilename(v1, p1, s1) == RuleFilename(v2, p2, s2)
        <==> NameBase(v1, p1, s1) == NameBase(v2, p2, s2)
  {
    var f1 := RuleFilename(v1, p1, s1);
    var f2 := RuleFilename(v2, p2, s2);
    if f1 == f2 {
      assert f1[|RulePrefix|..|f1| - |RuleSuffix|] == f2[|RulePrefix|..|f2| - |RuleSuffix|];
    }
  }

  /** The seed handed to the editor: the `uaccess` rule with its newline. */
  function EditorSeed(vendor: string, product: string): string {
    MatchPrefix(vendor, product) + UaccessClause + "\n"
  }

  /** Trimming the seed removes exactly its final newline: it starts with
      `S` and its last character before the newline is a quote. */
  lemma TrimEditorSeed(vendor: string, product: string)
    ensures RTrim(EditorSeed(vendor, product)) == MatchPrefix(vendor, product) + UaccessClause
  {
    var body := MatchPrefix(vendor, product) + UaccessClause;
    assert VendorMatch[0] == 'S';
    assert body[0] == 'S' by {
      assert body == VendorMatch + (vendor + ProductMatch + product + ClauseSep + UaccessClause);
    }
    assert UaccessClause[|UaccessClause| - 1] == '"';
    assert body[|body| - 1] == '"';
    assert EditorSeed(vendor, product) == "" + body + "\n";
    TrimOfPadded("", body, "\n", IsRustSpace);
  }

  /** The rule text, following the two branches of `create_new_rule`: the
      editor seed (trimmed and extended when a symlink is wanted) and the
      direct rule.  Its full layout is `RenderRuleLayout`. */
  function RenderRule(vendor: string, product: string, symlink: Option<string>, perm: Permission): (r: string)
    ensures |r| > 0 && r[|r| - 1] == '\n'
  {
    if perm == Editor then
      var seed := EditorSeed(vendor, product);
      if symlink.Some? then RTrim(seed) + SymlinkClause(symlink.value) + "\n" else seed
    else
      MatchPrefix(vendor, product) + Clause(perm) + SymlinkTail(symlink) + "\n"
  }

  /** Whichever branch produced it, a rule is the match part, the clause,
      the optional symlink clause and one newline, in that order. */
  lemma RenderRuleLayout(vendor: string, product: string, symlink: Option<string>, perm: Permission)
    ensures RenderRule(vendor, product, symlink, perm)
         == MatchPrefix(vendor, product) + Clause(perm) + SymlinkTail(symlink) + "\n"
  {
    if perm == Editor && symlink.Some? {
      TrimEditorSeed(vendor, product);
    }
  }

  /** The editor choice seeds exactly the rule the `uaccess` choice writes,
      symlink included, so the symlink is spliced onto the one line. */
  lemma EditorSeedIsUserAccessRule(vendor: string, product: string, symlink: Option<string>)
    ensures RenderRule(vendor, product, symlink, Editor) == RenderRule(vendor, product, symlink, UserAccess)
  {
    RenderRuleLayout(vendor, product, symlink, Editor);
  }

  /** Every rule starts with the match part. */
  lemma RuleStartsWithMatch(vendor: string, product: string, symlink: Option<string>, perm: Permission)
    ensures StartsWith(RenderRule(vendor, product, symlink, perm), MatchPrefix(vendor, product))
  {
    var prefix := MatchPrefix(vendor, product);
    RenderRuleLayout(vendor, product, symlink, perm);
    StartsWithConcat(prefix, Clause(perm));
    StartsWithExtend(prefix + Clause(perm), SymlinkTail(symlink), prefix);
    StartsWithExtend(prefix + Clause(perm) + SymlinkTail(symlink), "\n", prefix);
  }

  /** Every rule ends with a quote followed by exactly one newline. */
  lemma RuleEndsWithOneNewline(vendor: string, product: string, symlink: Option<string>, perm: Permission)
    ensures var r := RenderRule(vendor, product, symlink, perm);
      |r| >= 2 && r[|r| - 1] == '\n' && r[|r| - 2] == '"'
  {
    RenderRuleLayout(vendor, product, symlink, perm);
    var line := MatchPrefix(vendor, product) + Clause(perm) + SymlinkTail(symlink);
    var last := if symlink.Some? then SymlinkClause(symlink.value) else Clause(perm);
    assert last[|last| - 1] == '"';
    assert EndsWith(line, last) by {
      if symlink.Some? {
        EndsWithConcat(MatchPrefix(vendor, product) + Clause(perm), last);
      } else {
        assert line == MatchPrefix(vendor, product) + Clause(perm);
        EndsWithConcat(MatchPrefix(vendor, product), last);
      }
    }
    assert line[|line| - 1] == last[|last| - 1];
    var r := line + "\n";
    assert r[|r| - 2] == line[|line| - 1];
  }

  /** A rule ends with the symlink clause when a symlink is wanted, and with
      the permission clause when none is. */
  lemma RuleEnding(vendor: string, product: string, symlink: Option<string>, perm: Permission)
    ensures symlink.Some? ==> EndsWith(RenderRule(vendor, product, symlink, perm), SymlinkClause(symlink.value) + "\n")
    ensures symlink.None? ==> EndsWith(RenderRule(vendor, product, symlink, perm), Clause(perm) + "\n")
  {
    RenderRuleLayout(vendor, product, symlink, perm);
    var prefix := MatchPrefix(vendor, product);
    if symlink.Some? {
      var sc := SymlinkClause(symlink.value);
      assert RenderRule(vendor, product, symlink, perm) == (prefix + Clause(perm)) + (sc + "\n");
      EndsWithConcat(prefix + Clause(perm), sc + "\n");
    } else {
      assert RenderRule(vendor, product, symlink, perm) == prefix + (Clause(perm) + "\n");
      EndsWithConcat(prefix, Clause(perm) + "\n");
    }
  }

  /** The fixed pieces of the match part hold no newline. */
  lemma MatchTextHasNoNewline()
    ensures '\n' !in VendorMatch && '\n' !in ProductMatch && '\n' !in ClauseSep
  {
    var a, b, c := "SUBSYSTEM==\"usb\", ", "ACTION==\"add\", ", "ATTRS{idVendor}==\"";
    assert '\n' !in a && '\n' !in b && '\n' !in c;
    assert '\n' !in a + b + c;
  }

  /** No permission clause holds a newline. */
  lemma ClauseHasNoNewline(perm: Permission)
    ensures '\n' !in Clause(perm)
  {
    match perm
    case UserAccess =>
    case Everyone =>
    case GroupUucp =>
    case Editor =>
  }

  /** With newline-free ids and symlink the rule is a single line: its one
      newline is the last character. */
  lemma RuleIsOneLine(vendor: string, product: string, symlink: Option<string>, perm: Permission)
    requires '\n' !in vendor && '\n' !in product
    requires symlink.Some? ==> '\n' !in symlink.value
    ensures CountChar('\n', RenderRule(vendor, product, symlink, perm)) == 1
  {
    RenderRuleLayout(vendor, product, symlink, perm);
    var line := MatchPrefix(vendor, product) + Clause(perm) + SymlinkTail(symlink);
    MatchTextHasNoNewline();
    ClauseHasNoNewline(perm);
    assert '\n' !in ", SYMLINK+=\"";
    assert '\n' !in line;
    CountCharAbsent('\n', line);
    CountCharConcat('\n', line, "\n");
  }
}

/** The decision flow of `create_new_rule`, with every prompt replaced by
    the operator's answer. */
module CreateRule {
  import opened Wrappers
  import opened Text
  import opened RuleSynth
  import Devices

  /** The answer to "Create symlink?" and the name prompt that follows it. */
  datatype SymlinkAnswer = NoSymlink | AcceptDefault | Named(name: string)

  /** A rule ready to be written: where, what, whether the editor is opened
      afterwards, and which `/dev` name to wait for. */
  datatype RulePlan = RulePlan(path: string, text: string, openEditor: bool, waitFor: Option<string>)

  datatype CreateOutcome =
    | NoTarget                              // "Go Back" in the device menu
    | NotWritten(path: string, text: string) // the preview was declined
    | Write(plan: RulePlan)

  function ChosenSymlink(vendor: string, product: string, answer: SymlinkAnswer): Option<string> {
    match answer
    case NoSymlink => None
    case AcceptDefault => Some(DefaultSymlink(vendor, product))
    case Named(n) => Some(n)
  }

  /** Where the vendor and product come from: the `--id` argument when one is
      given, otherwise the device menu (whose failure aborts, and whose
      "Go Back" ends the flow quietly). */
  function ResolveTarget(argId: Option<string>, menu: Result<Option<Devices.Choice>, Devices.CatalogueError>): (r: Result<Option<IdPair>, CreateError>)
    ensures argId.Some? ==> (r.Success? <==> CountChar(':', argId.value) == 1)
    ensures argId.Some? && r.Success? ==> r.value.Some?
    ensures argId.None? ==> (r.Failure? <==> menu.Failure?)
    ensures argId.None? && menu.Success? ==> (r.value.None? <==> menu.value.None?)
    ensures argId.Some? && r.Success? ==> r.value == Some(ParseId(argId.value).value)
    ensures argId.None? && menu.Success? && menu.value.Some? ==>
      r == Success(Some(IdPair(menu.value.value.vendor, menu.value.value.product)))
  {
    if argId.Some? then
      match ParseId(argId.value)
      case Failure(e) => Failure(e)
      case Success(ids) => Success(Some(ids))
    else
      match menu
      case Failure(e) => Failure(DeviceMenu(e))
      case Success(None) => Success(None)
      case Success(Some(c)) => Success(Some(IdPair(c.vendor, c.product)))
  }

  /** `create_new_rule` up to the file write.  `osKnown` is whether the OS
      release file could be read (its failure aborts the flow; its content
      only changes a menu label); `permIdx` is the permission menu index and
      `confirmWrite` the answer to "Write to file?", which the editor choice
      never asks. */
  function Create(
    argId: Option<string>,
    menu: Result<Option<Devices.Choice>, Devices.CatalogueError>,
    answer: SymlinkAnswer,
    osKnown: bool,
    permIdx: nat,
    confirmWrite: bool): (r: Result<CreateOutcome, CreateError>)
    ensures argId.Some? && CountChar(':', argId.value) != 1 ==> r == Failure(InvalidId)
    ensures r.Success? && !r.value.NoTarget? ==> osKnown
    ensures r.Success? && r.value.Write? ==> confirmWrite || permIdx == 3
    ensures r.Success? && r.value.Write? ==>
      && r.value.plan.openEditor == (permIdx == 3)
      && StartsWith(r.value.plan.path, RulePrefix)
      && EndsWith(r.value.plan.path, RuleSuffix)
    ensures r.Success? && r.value.NotWritten? ==> !confirmWrite && permIdx != 3
    ensures ResolveTarget(argId, menu).Failure? ==> r == Failure(ResolveTarget(argId, menu).error)
    ensures ResolveTarget(argId, menu) == Success(None) ==> r == Success(NoTarget)
    ensures ResolveTarget(argId, menu).Success? && ResolveTarget(argId, menu).value.Some? ==>
      && (!osKnown ==> r == Failure(OsReleaseUnreadable))
      && (osKnown ==> r.Success? && (r.value.Write? <==> confirmWrite || permIdx == 3))
    ensures r.Success? && r.value.Write? ==>
      var ids := ResolveTarget(argId, menu).value.value;
      var s := ChosenSymlink(ids.vendor, ids.product, answer);
      r.value.plan == RulePlan(RuleFilename(ids.vendor, ids.product, s),
                               RenderRule(ids.vendor, ids.product, s, PermissionOf(permIdx)),
                               permIdx == 3, s)
    ensures r.Success? && r.value.NotWritten? ==>
      var ids := ResolveTarget(argId, menu).value.value;
      var s := ChosenSymlink(ids.vendor, ids.product, answer);
      && r.value.path == RuleFilename(ids.vendor, ids.product, s)
      && r.value.text == RenderRule(ids.vendor, ids.product, s, PermissionOf(permIdx))
  {
    match ResolveTarget(argId, menu)
    case Failure(e) => Failure(e)
    case Success(None) => Success(NoTarget)
    case Success(Some(ids)) =>
      if !osKnown then Failure(OsReleaseUnreadable)
      else
        var symlink := ChosenSymlink(ids.vendor, ids.product, answer);
        var perm := PermissionOf(permIdx);
        var path := RuleFilename(ids.vendor, ids.product, symlink);
        var text := RenderRule(ids.vendor, ids.product, symlink, perm);
        if perm != Editor && !confirmWrite then Success(NotWritten(path, text))
        else Success(Write(RulePlan(path, text, permIdx == 3, symlink)))
  }

  /** A well-formed `--id` always reaches the write decision, and the file is
      written exactly when the operator confirms or chose the editor. */
  lemma CreateFromIdDecides(id: string, answer: SymlinkAnswer, permIdx: nat, confirmWrite: bool,
                            menu: Result<Option<Devices.Choice>, Devices.CatalogueError>)
    requires CountChar(':', id) == 1
    ensures var r := Create(Some(id), menu, answer, true, permIdx, confirmWrite);
      r.Success? && (r.value.Write? <==> confirmWrite || permIdx == 3) && !r.value.NoTarget?
  {
  }

  /** The proposed symlink joins the ids with `_`, while the file name used
      without a symlink joins them with `-`. */
  lemma FilenameJoiners(vendor: string, product: string)
    ensures RuleFilename(vendor, product, ChosenSymlink(vendor, product, AcceptDefault))
         == RulePrefix + vendor + "_" + product + RuleSuffix
    ensures RuleFilename(vendor, product, ChosenSymlink(vendor, product, NoSymlink))
         == RulePrefix + vendor + "-" + product + RuleSuffix
  {
  }

  /** A well-formed `--id` with a confirmed write yields the plan for the
      parsed ids. */
  lemma CreateFromId(vendor: string, product: string, answer: SymlinkAnswer, permIdx: nat,
                     menu: Result<Option<Devices.Choice>, Devices.CatalogueError>)
    requires ':' !in vendor && ':' !in product
    ensures var symlink := ChosenSymlink(vendor, product, answer);
      Create(Some(vendor + ":" + product), menu, answer, true, permIdx, true)
      == Success(Write(RulePlan(RuleFilename(vendor, product, symlink),
                                RenderRule(vendor, product, symlink, PermissionOf(permIdx)),
                                permIdx == 3, symlink)))
  {
    ParseIdRoundTrip(vendor, product);
  }

  /** Picking a device from the menu plans the rule for the device at that
      position of the name-sorted catalogue; the file is written iff the
      operator confirms or chose the editor. */
  lemma CreateFromDevice(entries: seq<Option<Devices.DirEntry>>, idx: nat, answer: SymlinkAnswer,
                         permIdx: nat, confirmWrite: bool)
    requires Devices.Catalogue(entries).Success? && idx < |Devices.Catalogue(entries).value|
    ensures var d := Devices.Catalogue(entries).value[idx];
      var s := ChosenSymlink(d.vid, d.pid, answer);
      var path := RuleFilename(d.vid, d.pid, s);
      var text := RenderRule(d.vid, d.pid, s, PermissionOf(permIdx));
      Create(None, Devices.SelectDevice(entries, idx), answer, true, permIdx, confirmWrite)
      == Success(if confirmWrite || permIdx == 3 then Write(RulePlan(path, text, permIdx == 3, s))
                 else NotWritten(path, text))
  {
    var d := Devices.Catalogue(entries).value[idx];
    assert Devices.SelectDevice(entries, idx) == Success(Some(Devices.ChoiceOf(d)));
    ClauseOfIndex(permIdx);
  }

  /** The `uaccess` example: `046d:c52b`, no symlink, menu index 0. */
  lemma UaccessExample()
    ensures RuleFilename("046d", "c52b", None) == "/etc/udev/rules.d/" + "99-046d-c52b.rules"
    ensures RenderRule("046d", "c52b", None, PermissionOf(0))
         == "SUBSYSTEM==\"usb\", " + "ACTION==\"add\", " + "ATTRS{idVendor}==\"" + "046d"
            + "\", ATTRS{idProduct}==\"" + "c52b" + "\", " + "TAG+=\"uaccess\"" + "\n"
  {
    assert RenderRule("046d", "c52b", None, UserAccess)
        == MatchPrefix("046d", "c52b") + UaccessClause + "" + "\n";
  }

  /** The mode example: symlink `mouse`, menu index 1. */
  lemma EveryoneExample()
    ensures RuleFilename("046d", "c52b", Some("mouse")) == "/etc/udev/rules.d/" + "99-mouse.rules"
    ensures RenderRule("046d", "c52b", Some("mouse"), PermissionOf(1))
         == MatchPrefix("046d", "c52b") + "MODE=\"0666\"" + ", SYMLINK+=\"mouse\"" + "\n"
  {
    RenderRuleLayout("046d", "c52b", Some("mouse"), Everyone);
  }

  /** A hyphen instead of the colon is refused before anything is written. */
  lemma HyphenIdRefused(menu: Result<Option<Devices.Choice>, Devices.CatalogueError>,
                        answer: SymlinkAnswer, permIdx: nat, confirmWrite: bool)
    ensures Create(Some("046d-c52b"), menu, answer, true, permIdx, confirmWrite) == Failure(InvalidId)
  {
    var id := "046d-c52b";
    assert ':' !in id;
    CountCharAbsent(':', id);
    assert ParseId(id) == Failure(InvalidId);
  }
}

=== FILE: stablesort.dfy ===
/** A stable sort by a string key, as Rust's `slice::sort` / `sort_by` are.
    The result is characterised independently of the algorithm: it is ordered
    by key, and for every key the elements carrying it keep their input order.
    `SortedStableUnique` shows that these two facts pin the output down, so any
    stable sort (Rust's merge sort included) returns exactly `SortBy`. */
module StableSort {
  import opened LexOrder

  /** Non-decreasing by key, neighbour by neighbour. */
  predicate SortedBy<T>(s: seq<T>, key: T -> string) {
    forall i :: 0 < i < |s| ==> LexLe(key(s[i - 1]), key(s[i]))
  }

  /** The elements of `s` whose key is `k`, in their order in `s`. */
  function WithKey<T>(s: seq<T>, key: T -> string, k: string): seq<T> {
    if |s| == 0 then []
    else (if key(s[0]) == k then [s[0]] else []) + WithKey(s[1..], key, k)
  }

  /** `s` and `r` list the same elements for every key, in the same order. */
  ghost predicate SameKeyOrder<T>(s: seq<T>, r: seq<T>, key: T -> string) {
    forall k :: WithKey(r, key, k) == WithKey(s, key, k)
  }

  /** Places `x` after every element of `t` whose key is not above its own. */
  function Insert<T>(t: seq<T>, x: T, key: T -> string): (r: seq<T>)
    requires SortedBy(t, key)
    ensures SortedBy(r, key)
    ensures |r| == |t| + 1
    ensures multiset(r) == multiset(t) + multiset{x}
    ensures r[0] == x || (|t| > 0 && r[0] == t[0])
  {
    if |t| == 0 then [x]
    else if LexLe(key(t[0]), key(x)) then
      var rest := Insert(t[1..], x, key);
      assert t == [t[0]] + t[1..];
      [t[0]] + rest
    else
      LexLeTotal(key(t[0]), key(x));
      [x] + t
  }

  /** Sorts by key, keeping equal keys in input order. */
  function SortBy<T>(s: seq<T>, key: T -> string): (r: seq<T>)
    ensures SortedBy(r, key)
    ensures |r| == |s|
    ensures multiset(r) == multiset(s)
  {
    if |s| == 0 then []
    else
      var r := Insert(SortBy(s[..|s| - 1], key), s[|s| - 1], key);
      assert s == s[..|s| - 1] + [s[|s| - 1]];
      assert multiset(s) == multiset(s[..|s| - 1]) + multiset{s[|s| - 1]};
      r
  }

  lemma {:induction false} WithKeyConcat<T>(a: seq<T>, b: seq<T>, key: T -> string, k: string)
    ensures WithKey(a + b, key, k) == WithKey(a, key, k) + WithKey(b, key, k)
    decreases |a|
  {
    if |a| == 0 {
      assert a + b == b;
    } else {
      var head := if key(a[0]) == k then [a[0]] else [];
      assert (a + b)[0] == a[0];
      assert (a + b)[1..] == a[1..] + b;
      assert WithKey(a + b, key, k) == head + WithKey(a[1..] + b, key, k);
      WithKeyConcat(a[1..], b, key, k);
      assert WithKey(a, key, k) == head + WithKey(a[1..], key, k);
      ConcatAssoc(head, WithKey(a[1..], key, k), WithKey(b, key, k));
    }
  }

  lemma {:induction false} WithKeyAbsent<T>(s: seq<T>, key: T -> string, k: string)
    requires forall i :: 0 <= i < |s| ==> key(s[i]) != k
    ensures WithKey(s, key, k) == []
    decreases |s|
  {
    if |s| > 0 {
      WithKeyAbsent(s[1..], key, k);
    }
  }

  /** An element with key `k` is found wherever `WithKey` is non-empty. */
  lemma {:induction false} WithKeyWitness<T>(s: seq<T>, key: T -> string, k: string) returns (i: nat)
    requires WithKey(s, key, k) != []
    ensures i < |s| && key(s[i]) == k
    decreases |s|
  {
    if key(s[0]) == k {
      i := 0;
    } else {
      var j := WithKeyWitness(s[1..], key, k);
      i := j + 1;
    }
  }

  /** In a sorted sequence the first key is below every other. */
  lemma {:induction false} SortedHeadMin<T>(s: seq<T>, key: T -> string, i: nat)
    requires SortedBy(s, key) && i < |s|
    ensures LexLe(key(s[0]), key(s[i]))
    decreases i
  {
    if i == 0 {
      LexLeRefl(key(s[0]));
    } else {
      SortedHeadMin(s, key, i - 1);
      LexLeTrans(key(s[0]), key(s[i - 1]), key(s[i]));
    }
  }

  lemma {:induction false} InsertWithKey<T>(t: seq<T>, x: T, key: T -> string, k: string)
    requires SortedBy(t, key)
    ensures WithKey(Insert(t, x, key), key, k)
         == WithKey(t, key, k) + (if key(x) == k then [x] else [])
    decreases |t|
  {
    if |t| == 0 {
    } else if LexLe(key(t[0]), key(x)) {
      InsertWithKey(t[1..], x, key, k);
      InsertAfterHead(t, x, key, k);
    } else {
      InsertBeforeAll(t, x, key, k);
    }
  }

  /** Inserting past the first element: the first element stays in front. */
  lemma InsertAfterHead<T>(t: seq<T>, x: T, key: T -> string, k: string)
    requires SortedBy(t, key) && |t| > 0 && LexLe(key(t[0]), key(x))
    requires WithKey(Insert(t[1..], x, key), key, k)
          == WithKey(t[1..], key, k) + (if key(x) == k then [x] else [])
    ensures WithKey(Insert(t, x, key), key, k)
         == WithKey(t, key, k) + (if key(x) == k then [x] else [])
  {
    var rest := InsertUnfold(t, x, key);
    var head := WithKeyHead(t, key, k);
    var tail := if key(x) == k then [x] else [];
    WithKeyConcat([t[0]], rest, key, k);
    ConcatAssoc(head, WithKey(t[1..], key, k), tail);
  }

  /** Past a first element whose key is not above `x`'s, insertion keeps that element in front. */
  lemma InsertUnfold<T>(t: seq<T>, x: T, key: T -> string) returns (rest: seq<T>)
    requires SortedBy(t, key) && |t| > 0 && LexLe(key(t[0]), key(x))
    ensures SortedBy(t[1..], key)
    ensures rest == Insert(t[1..], x, key) && Insert(t, x, key) == [t[0]] + rest
  {
    assert SortedBy(t[1..], key);
    rest := Insert(t[1..], x, key);
  }

  /** The elements with key `k` are the first element's contribution followed by the rest's. */
  lemma WithKeyHead<T>(t: seq<T>, key: T -> string, k: string) returns (head: seq<T>)
    requires |t| > 0
    ensures head == WithKey([t[0]], key, k) == (if key(t[0]) == k then [t[0]] else [])
    ensures WithKey(t, key, k) == head + WithKey(t[1..], key, k)
  {
    head := if key(t[0]) == k then [t[0]] else [];
    WithKeyConcat([t[0]], t[1..], key, k);
    assert t == [t[0]] + t[1..];
  }

  lemma ConcatAssoc<T>(a: seq<T>, b: seq<T>, c: seq<T>)
    ensures a + (b + c) == (a + b) + c
  {
  }

  /** Inserting in front of a sorted sequence whose first key is above `x`'s. */
  lemma InsertBeforeAll<T>(t: seq<T>, x: T, key: T -> string, k: string)
    requires SortedBy(t, key) && |t| > 0 && !LexLe(key(t[0]), key(x))
    ensures WithKey(Insert(t, x, key), key, k)
         == WithKey(t, key, k) + (if key(x) == k then [x] else [])
  {
    var r := Insert(t, x, key);
    assert r[0] == x && r[1..] == t by {
      assert r == [x] + t;
    }
    if key(x) == k {
      forall i | 0 <= i < |t|
        ensures key(t[i]) != k
      {
        SortedHeadMin(t, key, i);
      }
      WithKeyAbsent(t, key, k);
      assert WithKey(r, key, k) == [x] + WithKey(t, key, k);
    } else {
      assert WithKey(r, key, k) == WithKey(t, key, k);
    }
  }

  /** `SortBy` keeps, for every key, the input order of the elements carrying it. */
  lemma {:induction false} SortByStable<T>(s: seq<T>, key: T -> string)
    ensures SameKeyOrder(s, SortBy(s, key), key)
    decreases |s|
  {
    if |s| > 0 {
      var init := s[..|s| - 1];
      var last := s[|s| - 1];
      SortByStable(init, key);
      assert s == init + [last];
      forall k
        ensures WithKey(SortBy(s, key), key, k) == WithKey(s, key, k)
      {
        SortByStableStep(init, last, key, k);
        WithKeyConcat(init, [last], key, k);
      }
    }
  }

  /** Sorting one more element adds it after the elements of its key. */
  lemma SortByStableStep<T>(init: seq<T>, last: T, key: T -> string, k: string)
    ensures WithKey(SortBy(init + [last], key), key, k)
         == WithKey(SortBy(init, key), key, k) + WithKey([last], key, k)
  {
    var s := init + [last];
    assert s[..|s| - 1] == init && s[|s| - 1] == last;
    assert SortBy(s, key) == Insert(SortBy(init, key), last, key);
    InsertWithKey(SortBy(init, key), last, key, k);
  }

  /** Being sorted and keeping every key's order determines the sequence. */
  lemma {:induction false} SortedStableUnique<T>(r1: seq<T>, r2: seq<T>, key: T -> string)
    requires SortedBy(r1, key) && SortedBy(r2, key)
    requires SameKeyOrder(r1, r2, key)
    ensures r1 == r2
    decreases |r1|
  {
    assert |r1| > 0 ==> WithKey(r2, key, key(r1[0])) == WithKey(r1, key, key(r1[0])) != [];
    assert |r2| > 0 ==> WithKey(r1, key, key(r2[0])) == WithKey(r2, key, key(r2[0])) != [];
    if |r1| > 0 {
      assert |r2| > 0;
      SortedStableHeads(r1, r2, key);
      forall k
        ensures WithKey(r2[1..], key, k) == WithKey(r1[1..], key, k)
      {
        WithKeyTail(r1, r2, key, k);
      }
      SortedStableUnique(r1[1..], r2[1..], key);
      assert r1 == [r1[0]] + r1[1..];
      assert r2 == [r2[0]] + r2[1..];
    }
  }

  /** Two such sequences start with the same element. */
  lemma SortedStableHeads<T>(r1: seq<T>, r2: seq<T>, key: T -> string)
    requires |r1| > 0 && |r2| > 0
    requires SortedBy(r1, key) && SortedBy(r2, key)
    requires SameKeyOrder(r1, r2, key)
    ensures r1[0] == r2[0]
  {
    var ka := key(r1[0]);
    var kb := key(r2[0]);
    assert WithKey(r1, key, ka) != [];
    assert WithKey(r2, key, ka) == WithKey(r1, key, ka);
    var j := WithKeyWitness(r2, key, ka);
    SortedHeadMin(r2, key, j);
    assert WithKey(r2, key, kb) != [];
    assert WithKey(r1, key, kb) == WithKey(r2, key, kb);
    var i := WithKeyWitness(r1, key, kb);
    SortedHeadMin(r1, key, i);
    LexLeAntisym(ka, kb);
    var w1 := WithKey(r1, key, ka);
    var w2 := WithKey(r2, key, ka);
    assert w1 == [r1[0]] + WithKey(r1[1..], key, ka);
    assert w2 == [r2[0]] + WithKey(r2[1..], key, ka);
    assert r1[0] == w1[0] == w2[0] == r2[0];
  }

  lemma WithKeyTail<T>(r1: seq<T>, r2: seq<T>, key: T -> string, k: string)
    requires |r1| > 0 && |r2| > 0 && r1[0] == r2[0]
    requires WithKey(r1, key, k) == WithKey(r2, key, k)
    ensures WithKey(r1[1..], key, k) == WithKey(r2[1..], key, k)
  {
    var h := if key(r1[0]) == k then [r1[0]] else [];
    assert WithKey(r1, key, k) == h + WithKey(r1[1..], key, k);
    assert WithKey(r2, key, k) == h + WithKey(r2[1..], key, k);
    assert (h + WithKey(r1[1..], key, k))[|h|..] == WithKey(r1[1..], key, k);
    assert (h + WithKey(r2[1..], key, k))[|h|..] == WithKey(r2[1..], key, k);
  }

  /** Any sorted rearrangement that keeps each key's order is `SortBy`'s. */
  lemma StableSortIsSortBy<T>(s: seq<T>, r: seq<T>, key: T -> string)
    requires SortedBy(r, key) && SameKeyOrder(s, r, key)
    ensures r == SortBy(s, key)
  {
    SortByStable(s, key);
    SortedStableUnique(r, SortBy(s, key), key);
  }
}

=== FILE: text.dfy ===
/** String helpers with the exact semantics of the Rust and Python library calls
    the tool relies on: `trim`, `lstrip`, `split`, `ends_with`, `count`. */
module Text {

  /** Rust's `char::is_whitespace`: the Unicode White_Space property. */
  predicate IsRustSpace(c: char) {
    || ('\t' <= c <= '\r')
    || c == ' '
    || c == '\U{85}'
    || c == '\U{A0}'
    || c == '\U{1680}'
    || ('\U{2000}' <= c <= '\U{200A}')
    || c == '\U{2028}'
    || c == '\U{2029}'
    || c == '\U{202F}'
    || c == '\U{205F}'
    || c == '\U{3000}'
  }

  /** Python's `str.isspace`, used by `lstrip()` and `split()`: the Unicode
      White_Space characters plus the separators U+001C..U+001F. */
  predicate IsPySpace(c: char) {
    IsRustSpace(c) || ('\U{1C}' <= c <= '\U{1F}')
  }

  /** Every character of `s` is a space in the sense of `sp`. */
  predicate AllSpace(s: string, sp: char -> bool) {
    forall i :: 0 <= i < |s| ==> sp(s[i])
  }

  /** `s` neither starts nor ends with a space in the sense of `sp`. */
  predicate NoEdgeSpace(s: string, sp: char -> bool) {
    |s| == 0 || (!sp(s[0]) && !sp(s[|s| - 1]))
  }

  /** Drops leading spaces (Rust `trim_start`, Python `lstrip`).  The facts
      about the trimming functions live in lemmas rather than in `ensures`, so
      that callers which never look inside a trimmed string do not pay for them. */
  function TrimStart(s: string, sp: char -> bool): string {
    if |s| > 0 && sp(s[0]) then TrimStart(s[1..], sp) else s
  }

  /** Drops trailing spaces (Rust `trim_end`). */
  function TrimEnd(s: string, sp: char -> bool): string {
    if |s| > 0 && sp(s[|s| - 1]) then TrimEnd(s[..|s| - 1], sp) else s
  }

  /** Drops spaces at both ends (Rust `str::trim` with `IsRustSpace`). */
  function Trim(s: string, sp: char -> bool): string {
    TrimEnd(TrimStart(s, sp), sp)
  }

  /** Rust's `str::trim`. */
  function RTrim(s: string): string {
    Trim(s, IsRustSpace)
  }

  /** `TrimStart` drops a prefix of spaces and stops at a non-space. */
  lemma {:induction false} TrimStartShape(s: string, sp: char -> bool)
    ensures |TrimStart(s, sp)| <= |s| && TrimStart(s, sp) == s[|s| - |TrimStart(s, sp)|..]
    ensures AllSpace(s[..|s| - |TrimStart(s, sp)|], sp)
    ensures |TrimStart(s, sp)| == 0 || !sp(TrimStart(s, sp)[0])
    decreases |s|
  {
    if |s| > 0 && sp(s[0]) {
      TrimStartShape(s[1..], sp);
      var k := |s[1..]| - |TrimStart(s[1..], sp)|;
      assert s[..k + 1] == [s[0]] + s[1..][..k];
    }
  }

  /** `TrimEnd` drops a suffix of spaces and stops at a non-space. */
  lemma {:induction false} TrimEndShape(s: string, sp: char -> bool)
    ensures |TrimEnd(s, sp)| <= |s| && TrimEnd(s, sp) == s[..|TrimEnd(s, sp)|]
    ensures AllSpace(s[|TrimEnd(s, sp)|..], sp)
    ensures |TrimEnd(s, sp)| == 0 || !sp(TrimEnd(s, sp)[|TrimEnd(s, sp)| - 1])
    decreases |s|
  {
    if |s| > 0 && sp(s[|s| - 1]) {
      var u := s[..|s| - 1];
      TrimEndShape(u, sp);
      assert s[|TrimEnd(u, sp)|..] == u[|TrimEnd(u, sp)|..] + [s[|s| - 1]];
    }
  }

  /** A trimmed string has no space at either end. */
  lemma TrimShape(s: string, sp: char -> bool)
    ensures NoEdgeSpace(Trim(s, sp), sp)
  {
    var u := TrimStart(s, sp);
    TrimStartShape(s, sp);
    TrimEndShape(u, sp);
    var r := TrimEnd(u, sp);
    if |r| > 0 {
      assert r[0] == u[0];
    }
  }

  lemma {:induction false} TrimStartOfSpaces(a: string, t: string, sp: char -> bool)
    requires AllSpace(a, sp)
    requires |t| == 0 || !sp(t[0])
    ensures TrimStart(a + t, sp) == t
    decreases |a|
  {
    if |a| == 0 {
      assert a + t == t;
    } else {
      assert (a + t)[1..] == a[1..] + t;
      TrimStartOfSpaces(a[1..], t, sp);
    }
  }

  lemma {:induction false} TrimEndOfSpaces(t: string, b: string, sp: char -> bool)
    requires AllSpace(b, sp)
    requires |t| == 0 || !sp(t[|t| - 1])
    ensures TrimEnd(t + b, sp) == t
    decreases |b|
  {
    if |b| == 0 {
      assert t + b == t;
    } else {
      assert (t + b)[..|t + b| - 1] == t + b[..|b| - 1];
      TrimEndOfSpaces(t, b[..|b| - 1], sp);
    }
  }

  /** Trimming is characterised by its result: whatever surrounds a core with
      no edge spaces, as long as it is all spaces, is exactly what is dropped. */
  lemma TrimOfPadded(a: string, t: string, b: string, sp: char -> bool)
    requires AllSpace(a, sp) && AllSpace(b, sp)
    requires NoEdgeSpace(t, sp)
    ensures Trim(a + t + b, sp) == t
  {
    if |t| == 0 {
      assert a + t + b == a + b;
      assert AllSpace(a + b, sp);
      TrimStartOfSpaces(a + b, "", sp);
      assert a + b + "" == a + b;
      TrimEndOfSpaces("", "", sp);
    } else {
      assert a + t + b == a + (t + b);
      TrimStartOfSpaces(a, t + b, sp);
      TrimEndOfSpaces(t, b, sp);
    }
  }

  lemma TrimIdempotent(s: string, sp: char -> bool)
    ensures Trim(Trim(s, sp), sp) == Trim(s, sp)
  {
    var t := Trim(s, sp);
    TrimShape(s, sp);
    TrimStartOfSpaces("", t, sp);
    assert "" + t == t;
    TrimEndOfSpaces(t, "", sp);
    assert t + "" == t;
  }

  predicate StartsWith(s: string, prefix: string) {
    |prefix| <= |s| && s[..|prefix|] == prefix
  }

  predicate EndsWith(s: string, suffix: string) {
    |suffix| <= |s| && s[|s| - |suffix|..] == suffix
  }

  lemma StartsWithConcat(a: string, b: string)
    ensures StartsWith(a + b, a)
  {
    assert (a + b)[..|a|] == a;
  }

  /** A prefix of `a` stays a prefix when more is appended. */
  lemma StartsWithExtend(a: string, b: string, prefix: string)
    requires StartsWith(a, prefix)
    ensures StartsWith(a + b, prefix)
  {
    assert (a + b)[..|prefix|] == a[..|prefix|];
  }

  lemma EndsWithConcat(a: string, b: string)
    ensures EndsWith(a + b, b)
  {
    assert (a + b)[|a|..] == b;
  }

  /** Number of occurrences of the character `c` in `s` (Python `str.count`
      with a one-character needle). */
  function CountChar(c: char, s: string): nat {
    if |s| == 0 then 0 else (if s[0] == c then 1 else 0) + CountChar(c, s[1..])
  }

  lemma {:induction false} CountCharConcat(c: char, a: string, b: string)
    ensures CountChar(c, a + b) == CountChar(c, a) + CountChar(c, b)
    decreases |a|
  {
    if |a| == 0 {
      assert a + b == b;
    } else {
      assert (a + b)[1..] == a[1..] + b;
      CountCharConcat(c, a[1..], b);
    }
  }

  lemma {:induction false} CountCharAbsent(c: char, s: string)
    ensures CountChar(c, s) == 0 <==> c !in s
    decreases |s|
  {
    if |s| > 0 {
      CountCharAbsent(c, s[1..]);
      assert s == [s[0]] + s[1..];
    }
  }

  /** Rust's `str::split(c)`: the pieces between occurrences of `c`,
      including the empty ones at either end. */
  function Split(s: string, c: char): (parts: seq<string>)
    ensures |parts| == CountChar(c, s) + 1
    ensures forall i :: 0 <= i < |parts| ==> c !in parts[i]
    ensures Join(parts, c) == s
  {
    if |s| == 0 then [""]
    else
      var rest := Split(s[1..], c);
      if s[0] == c then
        assert [s[0]] + Join(rest, c) == s;
        [""] + rest
      else
        var parts := [[s[0]] + rest[0]] + rest[1..];
        assert parts[1..] == rest[1..];
        assert Join(parts, c) == [s[0]] + Join(rest, c) by {
          if |rest| > 1 {
            assert Join(parts, c) == parts[0] + [c] + Join(rest[1..], c);
          }
        }
        assert [s[0]] + s[1..] == s;
        parts
  }

  /** The inverse of `Split`: the pieces glued back with the separator. */
  function Join(parts: seq<string>, c: char): string
    requires |parts| > 0
  {
    if |parts| == 1 then parts[0] else parts[0] + [c] + Join(parts[1..], c)
  }

  /** Position of the first `c` in `s`, or `|s|` when there is none. */
  function FirstIndex(s: string, c: char): nat {
    if |s| == 0 || s[0] == c then 0 else 1 + FirstIndex(s[1..], c)
  }

  lemma {:induction false} FirstIndexAfterPrefix(a: string, b: string, c: char)
    requires c !in a
    ensures FirstIndex(a + [c] + b, c) == |a|
    decreases |a|
  {
    if |a| > 0 {
      assert (a + [c] + b)[1..] == a[1..] + [c] + b;
      FirstIndexAfterPrefix(a[1..], b, c);
    }
  }

  /** Two strings that each have exactly one separator, both cut at it,
      agree on both sides. */
  lemma {:induction false} CutAtSeparator(a: string, b: string, a': string, b': string, c: char)
    requires c !in a && c !in a'
    requires a + [c] + b == a' + [c] + b'
    ensures a == a' && b == b'
  {
    var s := a + [c] + b;
    FirstIndexAfterPrefix(a, b, c);
    FirstIndexAfterPrefix(a', b', c);
    assert a == s[..|a|] == a';
    assert b == s[|a| + 1..] == b';
  }
}

=== FILE: wrappers.dfy ===
/** Option and Result datatypes shared by the whole model. */
module Wrappers {

  /** An optional value: a missing attribute, an absent symlink, an unset variable. */
  datatype Option<T> = None | Some(value: T) {

    /** The carried value, or `default` when there is none (Rust's `unwrap_or`). */
    function GetOr(default: T): T {
      match this
      case Some(v) => v
      case None => default
    }
  }

  /** The outcome of an operation that can fail (Rust's `anyhow::Result`). */
  datatype Result<T, E> = Success(value: T) | Failure(error: E)
}
